=== FILE: README.md ===
# IoT Sensor Manager — a Dafny model of its coordination logic

This project models the sequential core of the IoT Sensor Manager web application:

- **Flow generation** (`lib/node-red-utils.ts`). Registering a sensor produces a Node-RED tab.
  The tab holds an `mqtt in` node wired to a `json` parser, which is wired to a `debug` sink.
  One `mqtt-broker` config node comes with it.
- **Flow deployment** (`app/api/node-red/flows/route.ts`). The route validates the request,
  probes Node-RED, sanitises the broker host and patches the broker config. It then reads the
  remote flow collection, appends the generated nodes whose ids are new, and deploys the result
  with the fetched revision token.
- **The sensor registry** (`app/api/sensors/route.ts`): an upsert keyed by the unique
  `sensorId`, and a newest-first listing.
- **The client list and form** (`components/sensor-list.tsx`, `components/sensor-form.tsx`):
  search, delete, status toggle, field editing, and the submit sequence that registers a flow and
  appends the sensor.
- **The MQTT simulator and the two MQTT routes** (`lib/mqtt-client.ts`,
  `app/api/mqtt/test/route.ts`, `app/api/mqtt/publish/route.ts`).

Everything is a pure function over immutable datatypes. The outside world enters as parameters:

- the Node-RED health probe, its `GET /flows` and `POST /flows` answers;
- the MQTT broker's connect and publish answers;
- the clock (`Date.now()` readings, milliseconds since the epoch);
- the random parts of client ids;
- the database's column defaults;
- `JSON.parse`, as a parser function that either raises a syntax error or reports the kind of
  value it parsed.

Each route handler that changes something upstream (registering a flow, publishing over MQTT)
returns its HTTP status and body together with a trace of the upstream calls it made. The
read-only `GET /api/node-red/flows` returns its response alone. The trace lets the contracts state what was or was not fetched, deployed,
dialled or published.

The `MqttSimulator` class becomes a datatype with a `connected` flag. Its methods become pure
transitions.

Some behaviours of the code that the model keeps:

- The MQTT test route makes a single connection attempt with `reconnectPeriod` 0. There is no
  TCP-to-WebSocket fallback.
- Registration never writes the sensor to the database. The form appends it to the client-side
  list only.
- The duplicate-`sensorId` check happens only in the form, against that list.
- Toggling and deleting on the client never touch Node-RED.
- The flows route validates `samplePayload` only by generating the flow. An unparsable payload
  therefore fails with 500 after the health probe, not with 400.
- The form accepts a payload that parses to an array as well as an object. Both count as
  objects for `typeof`.

## Model

| member | source | states |
|---|---|---|
| FlowGenerator.GenerateNodeRedFlow | lib/node-red-utils.ts:10-119 | fails exactly when the sample payload is not JSON, with the parser's message; otherwise four nodes in the order tab, `mqtt in`, `json`, `debug` plus one `mqtt-broker` config; the flow id is the tab's id; the tab is top level, enabled, unwired and labelled `Sensor: <id>`; the other three nodes sit on the tab; the nodes form the chain mqtt→json→debug; the input uses the topic at QoS "0" through the config's id; the config keeps the broker URL, port 1883 and client id `nodered_<id>`; all five ids are distinct |
| FlowGenerator.AllIdsDistinct | lib/node-red-utils.ts:12-16 | the five ids differ whatever the sensor id and the clock readings, because the role prefixes begin with different letters |
| FlowGenerator.GenerateFlowExport | lib/node-red-utils.ts:132-155 | the export carries the caller's flow id and the label `Sensor: <id>`, has an empty env and lists the sensor id among its keywords; its nodes and configs form a generated bundle |
| FlowsRoute.StripScheme | app/api/node-red/flows/route.ts:83 | exactly one leading `mqtt://` is removed, and only when present |
| FlowsRoute.StripPort | app/api/node-red/flows/route.ts:83 | the result is the input, or a prefix of it that the input continues with `:` and at least one digit to the end |
| FlowsRoute.StripPortIffSuffix | app/api/node-red/flows/route.ts:83 | the trailing `:digits` is removed if and only if the string ends in a colon followed by digits |
| FlowsRoute.StripPortOfHostAndPort | app/api/node-red/flows/route.ts:83 | `h + ":" + d` loses exactly `":" + d` for any `h` and any non-empty digit string `d` |
| FlowsRoute.SanitizeSchemeHostPort | app/api/node-red/flows/route.ts:83 | sanitising `mqtt://h:d` gives `h` for every `h` and every non-empty digit string `d` |
| FlowsRoute.SanitizeBareHost | app/api/node-red/flows/route.ts:83 | a string with neither the `mqtt://` prefix nor a `:digits` suffix is left unchanged |
| FlowsRoute.PatchConfigs | app/api/node-red/flows/route.ts:84-89 | `mqtt-broker` configs get the sanitised host and port 1883 with every other field kept; configs of other types are untouched; ids, types and length are preserved |
| FlowsRoute.PatchTouchesOnlyBrokers | app/api/node-red/flows/route.ts:84-89 | among well-typed nodes, a config changes only if its type is `mqtt-broker`, and every `mqtt-broker` config is repointed |
| FlowsRoute.NormaliseReply | app/api/node-red/flows/route.ts:104-109 | a bare array gives those flows and no revision; an object with array `flows` gives `.flows` and `.rev`; anything else, including non-array `flows`, is a failure |
| FlowsRoute.FetchCurrent | app/api/node-red/flows/route.ts:92-109 | the current collection is obtained only from an ok answer, and is that answer normalised |
| FlowsRoute.ExistingIds | app/api/node-red/flows/route.ts:112 | the set contains exactly the ids of the current nodes |
| FlowsRoute.NewNodes | app/api/node-red/flows/route.ts:113 | an order-preserving subsequence of the candidates that keeps every occurrence of each candidate whose id is not already present and none of the others; with no collision it is all the candidates |
| FlowsRoute.MergeFlows | app/api/node-red/flows/route.ts:112-114 | the current collection is an unchanged prefix of the result; the appended part is the generated nodes followed by the configs, order kept, filtered to new ids |
| FlowsRoute.MergeAppendsWholeBundle | app/api/node-red/flows/route.ts:112-114 | when no generated id collides, the whole bundle is appended, which is five objects |
| FlowsRoute.MergeKeepsCurrentIdsUnique | app/api/node-red/flows/route.ts:112-114 | no appended node shares an id with a node of the current collection |
| FlowsRoute.PostFlows | app/api/node-red/flows/route.ts:57-141 | a body that is not JSON gives 500 with no upstream call; a missing or empty sensorId, brokerUrl or topic gives 400 with no upstream call, samplePayload unchecked, and 400 means exactly that; a complete request is always probed, and an unhealthy Node-RED gives 503 with nothing fetched or deployed; a sample payload that is not JSON gives 500 with the parser's message after the probe and before the fetch; a failed fetch gives 500 with its message and nothing deployed; a request that passes every check and reads the current flows is always deployed; whatever is deployed is the fetched collection, unchanged, followed by the new nodes of a generated bundle with sanitised broker config, and echoes the fetched `rev`; 200 if and only if Node-RED accepted that deployment, and the reply then carries the generated flow id; a refused deployment gives 500 with its status and text |
| FlowsRoute.GetFlows | app/api/node-red/flows/route.ts:27-55 | an unhealthy probe gives 503 with the start hint; an ok answer yields the bare array or the object's `flows`; any other JSON value yields `flows` undefined; a rejected fetch, a non-ok status, a `null` body or a body that is not JSON gives 500 with one fixed message, and so does every other failure |
| FlowsRoute.ListingAgreesWithFetch | app/api/node-red/flows/route.ts:36-53 | for a healthy Node-RED the listing returns exactly the collection the registering handler would merge into whenever that handler accepts the reply; a scalar reply or an object whose `flows` is not an array fails registration but is listed with `flows` undefined; the listing answers 200 if and only if the reply is an ok, non-null JSON answer |
| SensorStore.Assign | app/api/sensors/route.ts:32 | an absent optional field keeps the stored value, null clears it, a string sets it |
| SensorStore.Upsert | app/api/sensors/route.ts:30-34 | the saved record sits under its sensorId with the request's brokerUrl, topic and samplePayload; the key set grows by at most that key; records under other keys are unchanged; the store stays keyed by sensorId |
| SensorStore.UpsertCreates | app/api/sensors/route.ts:30-34 | an absent sensorId adds one record, which takes the database defaults, has no lastSeen, and takes the description and flow id from the request |
| SensorStore.UpsertUpdates | app/api/sensors/route.ts:30-32 | an existing sensorId keeps the record count, id, status, createdAt and lastSeen; description and nodeRedFlowId are set by a string, cleared by null and kept when absent |
| SensorStore.PostSensor | app/api/sensors/route.ts:16-40 | a missing or empty sensorId, brokerUrl, topic or samplePayload gives 400 and leaves the store unchanged; an unreadable body gives 500 and leaves it unchanged; otherwise 200 with the stored record, the new store being the upsert: the posted key added or rewritten and records under every other key unchanged |
| SensorStore.PostSensorKeepsKeyUnique | app/api/sensors/route.ts:30-34 | after a successful POST, exactly one record carries the posted sensorId |
| SensorStore.InsertByCreation | app/api/sensors/route.ts:8 | inserting keeps the sequence newest first and adds exactly one occurrence of the record |
| SensorStore.ListSensors | app/api/sensors/route.ts:8 | lists every stored record, and only stored records, as many as the store holds, in descending createdAt |
| SensorStore.GetSensors | app/api/sensors/route.ts:6-14 | answers 200 with every record of the store, newest first |
| SensorList.FilterSensors | components/sensor-list.tsx:35-40 | an order-preserving subsequence that keeps a sensor if and only if the lower-cased term occurs in its lower-cased sensorId, description (when present) or topic; every occurrence of a matching record is kept and none of the others |
| SensorList.EmptyTermKeepsAll | components/sensor-list.tsx:35-40 | the empty search term keeps the whole list |
| SensorList.AskDelete | components/sensor-list.tsx:42-44 | the dialog opens on the chosen sensor |
| SensorList.WithoutId | components/sensor-list.tsx:48 | an order-preserving subsequence holding exactly the sensors whose id differs, each with all its occurrences |
| SensorList.ConfirmDelete | components/sensor-list.tsx:46-51 | with a dialog sensor, drops exactly the sensors sharing its id, keeps every occurrence of the rest in order and closes the dialog; without one, changes nothing |
| SensorList.Toggled | components/sensor-list.tsx:59 | the status always changes, and becomes disconnected exactly when it was connected |
| SensorList.ToggleOne | components/sensor-list.tsx:57-61 | status toggled; lastSeen stamped with now only when the sensor was disconnected, else kept; every other field kept |
| SensorList.ToggleSensorStatus | components/sensor-list.tsx:53-65 | the length is kept; sensors with another id are unchanged; matching sensors change only status and lastSeen, as ToggleOne states |
| SensorList.ToggleTwice | components/sensor-list.tsx:59 | two toggles restore connected or disconnected, and take an error status to disconnected |
| SensorForm.HandleInputChange | components/sensor-form.tsx:40-49 | the edited field takes the value and the message is cleared; editing sensorId also sets topic to `sensors/<value>/data`; every other field is kept |
| SensorForm.ValidatePayload | components/sensor-form.tsx:51-58 | holds if and only if the text parses to a non-null object, arrays included |
| SensorForm.HandleSubmit | components/sensor-form.tsx:60-132 | an invalid payload is refused first, then a duplicate sensorId, both with no request and nothing changed; otherwise the form's fields are posted; any failure leaves list and form unchanged, showing the route's error (or a fixed fallback) on rejection and the thrown error's message when the request throws; success appends exactly one disconnected sensor with the form's fields and the returned flow id, its id from the first clock reading and its createdAt from the second, then resets the form |
| SensorForm.SubmitKeepsIdsUnique | components/sensor-form.tsx:72-108 | if sensorIds were unique before a submit, they are unique after it |
| MqttClient.NewSimulator | lib/mqtt-client.ts:20-31 | a new simulator is disconnected; port 1883, keepalive 60, clean true and a random `client_` id are defaults that caller options override |
| MqttClient.HostFormatMatchesPattern | lib/mqtt-client.ts:45 | the direct host test agrees with the pattern `^[a-zA-Z0-9.-]+\.[a-zA-Z]{2,}$` in both directions |
| MqttClient.Connect | lib/mqtt-client.ts:33-53 | returns the new connected flag, which holds if and only if the URL contains `hivemq.com` or matches the host pattern; the settings are unchanged |
| MqttClient.Publish | lib/mqtt-client.ts:55-72 | fails with "MQTT client not connected" exactly when disconnected; otherwise echoes topic and payload with QoS defaulting to 0, retain false, stamped now |
| MqttClient.Subscribe | lib/mqtt-client.ts:74-82 | succeeds with true exactly when connected |
| MqttClient.Disconnect | lib/mqtt-client.ts:84-86 | leaves the simulator disconnected with its settings kept |
| MqttClient.IsConnected | lib/mqtt-client.ts:88-90 | reports the connected flag |
| MqttClient.ConnectThenPublish | lib/mqtt-client.ts:33-90 | after a successful connect a publish succeeds; after a disconnect publish and subscribe fail |
| MqttClient.TestMqttConnection | lib/mqtt-client.ts:93-124 | succeeds if and only if the connect succeeded, that is, for HiveMQ or pattern-matching hosts; latency is reported only on success |
| MqttRoutes.Validate | app/api/mqtt/test/route.ts:11-20 | a missing or empty brokerUrl, topic or payload gives 400; invalid JSON gives 400, checked only after the presence check; an unreadable body gives 500 |
| MqttRoutes.ConnectAndPublish | app/api/mqtt/test/route.ts:25-68 | exactly one connection attempt; a publish only after CONNACK; 200 if and only if both were acknowledged, every failure 500; the client is ended only on success; a timeout reports "Connection timeout", a connect or publish error its own message |
| MqttRoutes.TestRoute | app/api/mqtt/test/route.ts:6-70 | a rejected request makes no broker call; otherwise dials `mqtt://<sanitised host>:1883` once with reconnectPeriod 0, publishes once with QoS 0 and retain false exactly when CONNACK came, answers 500 on any broker failure ("Connection timeout" for the timer), and on success reports `MQTT publish successful to <host>:1883` |
| MqttRoutes.TestRouteDialsBareHost | app/api/mqtt/test/route.ts:22-23 | for broker `mqtt://h:port` the test route's URL is `mqtt://h:1883` |
| MqttRoutes.PublishRoute | app/api/mqtt/publish/route.ts:6-72 | a rejected request makes no broker call; otherwise dials `mqtt://<brokerUrl>:1883` unsanitised, publishes once with the requested QoS, default 0, and retain false exactly when CONNACK came, answers 500 on any broker failure ("Connection timeout" for the timer), and on success reports "Message published" |
| MqttRoutes.PublishDialsLikeTestForBareHost | app/api/mqtt/publish/route.ts:22-31 | for a broker written without `mqtt://` and without `:digits`, the publish route dials the same connection as the test route apart from the client id prefix |
| MqttRoutes.PublishKeepsSchemeAndPort | app/api/mqtt/publish/route.ts:22 | the publish route does not sanitise: for `mqtt://h:port` it dials `mqtt://mqtt://h:port:1883`, where the test route dials `mqtt://h:1883` |

## Left out

- `validateNodeRedConnection`, `checkNodeRedHealth` and the 2-second abort timer. The probe is an oracle boolean.
- The network, the MQTT client library and its timers (the 4-second connect timeout and the 5-second promise timer). Their outcomes are oracle values.
- `JSON.parse` and `JSON.stringify`. Parsing is a parser parameter; the sample payload keeps only the kind of the parsed value.
- `generateSensorData`: it uses `Math.random` and floating-point rounding.
- `components/mqtt-tester.tsx`, `app/page.tsx`, the health route, and the per-id sensor and flow routes: they are outside this model.
- `handleTestConnection` in the form: it is one fetch of the MQTT test route, which is modelled on its own.
- Node fields with fixed values are not represented: the tab's `env`; the broker's birth, close and will fields, `userProps` and `sessionExpiry`; the input's `nl`, `rap`, `rh` and `inputs`; the debug node's `console`, `tostatus`, `targetType`, `statusVal` and `statusType`.
- Request fields present with a non-string value (null, a number) are not modelled. A field is either absent or a string.
- A request body that is JSON `null` is modelled as an unreadable body: destructuring it throws, so every handler answers 500, as for a body that is not JSON.
- Database failures in `/api/sensors` (its 500 path other than an unreadable body) are not modelled. The record id and the `status` and `createdAt` column defaults are passed in, because the schema is outside this model.
- `toLowerCase` is modelled on ASCII letters only.
- `toISOString` is not modelled. Times are millisecond counts.
- React state batching, the loading flags, the delayed `onSuccess` callback and the submit button's disabled state or HTML `required` attributes are left out. `HandleSubmit` therefore accepts empty fields, as the handler itself does.
- The read-modify-write race on the remote collection and its `rev` is left out: the model is sequential.
- The simulated delays and the unreachable `catch` in `MqttSimulator.connect` are left out.
- An option key passed explicitly as `undefined` to the `MqttSimulator` constructor is left out. In JavaScript it overrides the default; here it is the same as leaving the key out.
- The MQTT routes' `messageId` is left out; it is always undefined.
- FlowsRoute.GetFlows: a non-array `flows` in the reply is reported as `None` rather than passed through verbatim.
- FlowsRoute.NormaliseReply: the `TypeError` message for a `null` reply is a fixed string standing in for the engine's text.
- FlowGenerator.GenerateFlowExport: requires the parser to accept its fixed sample payload, which is a JSON object.

=== FILE: flow_generator.dfy ===
/** The Node-RED flow template for one sensor: a tab holding an `mqtt in` node wired to a
    `json` parser wired to a `debug` sink, plus one `mqtt-broker` configuration node. */
module FlowGenerator {
  import opened Wrappers
  import opened Strings
  import opened Json
  import opened SensorTypes

  datatype Params = Params(sensorId: string, brokerUrl: string, topic: string, samplePayload: string)

  /** The five readings of `Date.now()` taken while naming the generated nodes; they may or
      may not be equal. */
  datatype Stamps = Stamps(flow: Instant, mqtt: Instant, json: Instant, debug: Instant, broker: Instant)

  /** What generation returns: the tab id, the four flow nodes, the one config node and the
      parsed sample payload (only its kind is kept). */
  datatype Bundle = Bundle(flowId: string, nodes: seq<FlowNode>, configs: seq<FlowNode>, samplePayload: Kind)

  const DefaultPort := 1883

  /** A generated node id: role prefix, sensor id, `_`, time stamp. */
  function MakeId(prefix: string, sensorId: string, stamp: Instant): (r: string)
    requires |prefix| > 0
    ensures |r| > |prefix| && r[0] == prefix[0]
  {
    prefix + sensorId + "_" + NatToString(stamp)
  }

  function TabLabel(sensorId: string): string {
    "Sensor: " + sensorId
  }

  /** `generateNodeRedFlow`: builds the bundle, or fails with the parser's error when the
      sample payload is not JSON. */
  function GenerateNodeRedFlow(p: Params, t: Stamps, parse: Parser): (r: Result<Bundle>)
    ensures r.Err? <==> !ValidJson(parse, p.samplePayload)
    ensures r.Err? ==> r.message == parse(p.samplePayload).message
    ensures r.Ok? ==> r.value.samplePayload == parse(p.samplePayload).kind
    ensures r.Ok? ==> IsFlowBundle(r.value, p.sensorId, p.brokerUrl, p.topic)
  {
    var flowId := MakeId("flow_", p.sensorId, t.flow);
    var mqttNodeId := MakeId("mqtt_", p.sensorId, t.mqtt);
    var jsonNodeId := MakeId("json_", p.sensorId, t.json);
    var debugNodeId := MakeId("debug_", p.sensorId, t.debug);
    var brokerConfigId := MakeId("broker_", p.sensorId, t.broker);
    var flowTab := Tab(flowId, TabLabel(p.sensorId), false,
                       "Auto-generated flow for sensor " + p.sensorId + "\nTopic: " + p.topic
                       + "\nBroker: " + p.brokerUrl,
                       0, 0, "", []);
    var brokerConfig := MqttBroker(brokerConfigId, p.sensorId + " Broker", p.brokerUrl, DefaultPort,
                                   "nodered_" + p.sensorId, true, false, "4", 60, true);
    var mqttNode := MqttIn(mqttNodeId, flowId, p.sensorId + " Input", p.topic, "0", "auto-detect",
                           brokerConfigId, 120, 100, [[jsonNodeId]]);
    var jsonNode := JsonParser(jsonNodeId, flowId, "Parse JSON", "payload", "obj", false, 300, 100,
                               [[debugNodeId]]);
    var debugNode := Debug(debugNodeId, flowId, p.sensorId + " Debug", true, true, "payload", 480, 100, []);
    match parse(p.samplePayload)
    case SyntaxError(msg) => Err(msg)
    case Value(k) =>
      var b := Bundle(flowId, [flowTab, mqttNode, jsonNode, debugNode], [brokerConfig], k);
      assert DistinctIds(b) by { AllIdsDistinct(b); }
      Ok(b)
  }

  /** The ids of the five generated objects, nodes first. */
  function AllIds(b: Bundle): seq<Option<string>> {
    seq(|b.nodes|, i requires 0 <= i < |b.nodes| => b.nodes[i].Id())
      + seq(|b.configs|, i requires 0 <= i < |b.configs| => b.configs[i].Id())
  }

  ghost predicate DistinctIds(b: Bundle) {
    var ids := AllIds(b);
    forall i, j :: 0 <= i < j < |ids| ==> ids[i] != ids[j]
  }

  /** Four nodes in the order tab, `mqtt in`, `json`, `debug`, and one `mqtt-broker` config. */
  ghost predicate HasShape(b: Bundle) {
    && |b.nodes| == 4 && |b.configs| == 1
    && b.nodes[0].Tab? && b.nodes[1].MqttIn? && b.nodes[2].JsonParser? && b.nodes[3].Debug?
    && b.configs[0].MqttBroker?
  }

  /** The tab is the flow: its id is the returned flow id, it is top level and enabled,
      and every other node sits on it. */
  ghost predicate TabOwnsNodes(b: Bundle, sensorId: string)
    requires HasShape(b)
  {
    var tab := b.nodes[0];
    && b.flowId == tab.id
    && tab.z == "" && !tab.disabled && tab.wires == [] && tab.tabLabel == TabLabel(sensorId)
    && forall i :: 1 <= i < 4 ==> b.nodes[i].z == b.flowId
  }

  /** `mqtt in` feeds `json`, which feeds `debug`, which feeds nothing. */
  ghost predicate IsChain(b: Bundle)
    requires HasShape(b)
  {
    && b.nodes[1].wires == [[b.nodes[2].id]]
    && b.nodes[2].wires == [[b.nodes[3].id]]
    && b.nodes[3].wires == []
  }

  /** The input node subscribes to the topic at QoS "0" through the bundle's broker config,
      which points at the caller's broker on the default port. */
  ghost predicate UsesBroker(b: Bundle, sensorId: string, brokerUrl: string, topic: string)
    requires HasShape(b)
  {
    var input := b.nodes[1];
    var config := b.configs[0];
    && input.topic == topic && input.qos == "0" && input.broker == config.id
    && config.broker == brokerUrl && config.port == DefaultPort
    && config.clientid == "nodered_" + sensorId
  }

  ghost predicate IsFlowBundle(b: Bundle, sensorId: string, brokerUrl: string, topic: string) {
    && HasShape(b)
    && DistinctIds(b)
    && TabOwnsNodes(b, sensorId)
    && IsChain(b)
    && UsesBroker(b, sensorId, brokerUrl, topic)
  }

  /** The role prefixes start with different letters, so the ids differ whatever the
      sensor id and the time stamps. */
  lemma AllIdsDistinct(b: Bundle)
    requires |b.nodes| == 4 && |b.configs| == 1
    requires forall i :: 0 <= i < 4 ==> !b.nodes[i].Other?
    requires !b.configs[0].Other?
    requires |b.nodes[0].id| > 0 && b.nodes[0].id[0] == 'f'
    requires |b.nodes[1].id| > 0 && b.nodes[1].id[0] == 'm'
    requires |b.nodes[2].id| > 0 && b.nodes[2].id[0] == 'j'
    requires |b.nodes[3].id| > 0 && b.nodes[3].id[0] == 'd'
    requires |b.configs[0].id| > 0 && b.configs[0].id[0] == 'b'
    ensures DistinctIds(b)
  {
  }

  /** The sample payload `generateFlowExport` passes to the generator. */
  const ExportSamplePayload := "{\"value\": 0, \"timestamp\": \"2025-01-01T00:00:00Z\"}"

  datatype ExportMeta = ExportMeta(metaModule: string, metaType: string, version: string,
                                   desc: string, keywords: seq<string>, author: string)

  datatype FlowExport = FlowExport(id: string, exportLabel: string, nodes: seq<FlowNode>,
                                   configs: seq<FlowNode>, env: seq<string>, meta: ExportMeta)

  /** `generateFlowExport`: the generated nodes and configs under the caller's flow id.
      The parser must accept the fixed sample payload, which is a JSON object. */
  function GenerateFlowExport(flowId: string, sensorId: string, brokerUrl: string, topic: string,
                              t: Stamps, parse: Parser): (r: FlowExport)
    requires ValidJson(parse, ExportSamplePayload)
    ensures r.id == flowId && r.exportLabel == TabLabel(sensorId) && r.env == []
    ensures |r.nodes| > 0 && r.nodes[0].Tab?
    ensures IsFlowBundle(Bundle(r.nodes[0].id, r.nodes, r.configs, Null), sensorId, brokerUrl, topic)
    ensures sensorId in r.meta.keywords
  {
    var flow := GenerateNodeRedFlow(Params(sensorId, brokerUrl, topic, ExportSamplePayload), t, parse);
    var b := flow.value;
    assert IsFlowBundle(Bundle(b.nodes[0].id, b.nodes, b.configs, Null), sensorId, brokerUrl, topic);
    FlowExport(flowId, TabLabel(sensorId), b.nodes, b.configs, [],
               ExportMeta("node-red", "flows", "1.0.0", "Auto-generated flow for IoT sensor " + sensorId,
                          ["iot", "mqtt", "sensor", sensorId], "IoT Sensor Manager"))
  }
}

=== FILE: flows_route.dfy ===
/** The Node-RED flows route: listing the remote flow collection, and registering one
    sensor's flow by reading the remote collection, appending the generated nodes whose ids
    are new, and deploying the result back. The health probe and the two calls to Node-RED
    are oracle results passed in by the caller. */
module FlowsRoute {
  import opened Wrappers
  import opened Strings
  import opened Json
  import opened Sequences
  import opened Http
  import opened SensorTypes
  import opened FlowGenerator

  // ---------------------------------------------------------------------------------------
  // Broker host sanitisation: `brokerUrl.replace(/^mqtt:\/\//, "").replace(/:\d+$/, "")`
  // ---------------------------------------------------------------------------------------

  const MqttScheme := "mqtt://"

  /** Removes one leading `mqtt://`. */
  function StripScheme(s: string): (r: string)
    ensures StartsWith(s, MqttScheme) ==> s == MqttScheme + r
    ensures !StartsWith(s, MqttScheme) ==> r == s
  {
    if StartsWith(s, MqttScheme) then s[|MqttScheme|..] else s
  }

  /** `s` ends in a colon followed by one or more ASCII digits. */
  predicate HasPortSuffix(s: string) {
    exists i | 0 <= i < |s| - 1 :: s[i] == ':' && AllDigits(s[i + 1..])
  }

  /** Removes a trailing `:digits`. The digits matched are the maximal run of digits at the
      end, and only a colon directly before that run makes the pattern match. */
  function StripPort(s: string): (r: string)
    ensures r == s || (|r| + 1 < |s| && s[..|r|] == r && s[|r|] == ':' && AllDigits(s[|r| + 1..]))
  {
    var k := TrailingDigits(s);
    if 0 < k < |s| && s[|s| - k - 1] == ':' then s[..|s| - k - 1] else s
  }

  /** The host name written into the broker config (and, in the MQTT test route, dialled). */
  function SanitizeBroker(s: string): string {
    StripPort(StripScheme(s))
  }

  /** A `:digits` suffix is removed exactly when there is one. */
  lemma StripPortIffSuffix(s: string)
    ensures HasPortSuffix(s) <==> StripPort(s) != s
  {
  }

  /** The maximal digit run after a colon followed only by digits starts right after it. */
  lemma TrailingDigitsAfterColon(s: string, i: int)
    requires 0 <= i < |s| && s[i] == ':' && AllDigits(s[i + 1..])
    ensures TrailingDigits(s) == |s| - i - 1
  {
  }

  /** The trailing `:digits` is the part after the last colon when that part is all digits. */
  lemma StripPortOfHostAndPort(h: string, d: string)
    requires |d| > 0 && AllDigits(d)
    ensures StripPort(h + ":" + d) == h
  {
    var s := h + ":" + d;
    assert s[|h|] == ':' && s[|h| + 1..] == d;
    TrailingDigitsAfterColon(s, |h|);
    assert s[..|h|] == h;
  }

  /** `mqtt://host:port` sanitises to `host`, for every host and every port written in digits. */
  lemma SanitizeSchemeHostPort(h: string, d: string)
    requires |d| > 0 && AllDigits(d)
    ensures SanitizeBroker(MqttScheme + h + ":" + d) == h
  {
    var s := MqttScheme + h + ":" + d;
    assert s[..|MqttScheme|] == MqttScheme;
    assert StripScheme(s) == h + ":" + d;
    StripPortOfHostAndPort(h, d);
  }

  /** A bare host without scheme or port passes through unchanged. */
  lemma SanitizeBareHost(s: string)
    requires !StartsWith(s, MqttScheme) && !HasPortSuffix(s)
    ensures SanitizeBroker(s) == s
  {
    StripPortIffSuffix(s);
  }

  // ---------------------------------------------------------------------------------------
  // Config patch, reply normalisation, merge
  // ---------------------------------------------------------------------------------------

  /** Points every `mqtt-broker` config at `host` on port 1883 and leaves the others alone. */
  function PatchConfigs(configs: seq<FlowNode>, host: string): (r: seq<FlowNode>)
    ensures |r| == |configs|
    ensures forall i :: 0 <= i < |r| ==> r[i].Id() == configs[i].Id() && r[i].Type() == configs[i].Type()
    ensures forall i :: 0 <= i < |r| && configs[i].Type() != BrokerType ==> r[i] == configs[i]
    ensures forall i :: 0 <= i < |r| && configs[i].MqttBroker? ==>
              && r[i].MqttBroker? && r[i].broker == host && r[i].port == DefaultPort
              && r[i].(broker := configs[i].broker, port := configs[i].port) == configs[i]
  {
    seq(|configs|, i requires 0 <= i < |configs| =>
      if configs[i].MqttBroker? then configs[i].(broker := host, port := DefaultPort) else configs[i])
  }

  /** For well-typed nodes, the configs patched are exactly those of type `mqtt-broker`. */
  lemma PatchTouchesOnlyBrokers(configs: seq<FlowNode>, host: string, i: int)
    requires 0 <= i < |configs| && configs[i].WellTyped()
    ensures PatchConfigs(configs, host)[i] != configs[i] ==> configs[i].Type() == BrokerType
    ensures configs[i].Type() == BrokerType ==>
              PatchConfigs(configs, host)[i].broker == host && PatchConfigs(configs, host)[i].port == DefaultPort
  {
  }

  /** The body of `GET /flows` as Node-RED answered it. `ObjectReply.flows` is `None` when
      the `flows` property is missing or not an array. */
  datatype FlowsReply =
    | ArrayReply(nodes: seq<FlowNode>)
    | ObjectReply(flows: Option<seq<FlowNode>>, rev: Option<string>)
    | ScalarReply
    | NullReply
    | Unparsable(message: string)

  /** The outcome of one `fetch`: a rejected promise, or an HTTP answer. */
  datatype Fetched<T> = NetworkError(message: string) | Answered(status: nat, reply: T)

  /** The collection to merge into and the revision token to echo. */
  datatype Current = Current(flows: seq<FlowNode>, rev: Option<string>)

  const UnexpectedFormat := "Unexpected Node-RED flows response format"
  /** The `TypeError` V8 throws when reading `.flows` of `null`. */
  const NullFlowsAccess := "Cannot read properties of null (reading 'flows')"

  /** Normalisation in the POST handler: a bare array has no revision; an object supplies
      `flows` and `rev`; anything whose flows are not an array is a failure. */
  function NormaliseReply(reply: FlowsReply): (r: Result<Current>)
    ensures reply.ArrayReply? ==> r == Ok(Current(reply.nodes, None))
    ensures reply.ObjectReply? && reply.flows.Some? ==> r == Ok(Current(reply.flows.value, reply.rev))
    ensures reply.ObjectReply? && reply.flows.None? ==> r == Err(UnexpectedFormat)
    ensures r.Ok? <==> reply.ArrayReply? || (reply.ObjectReply? && reply.flows.Some?)
  {
    match reply
    case ArrayReply(nodes) => Ok(Current(nodes, None))
    case ObjectReply(flows, rev) =>
      if flows.Some? then Ok(Current(flows.value, rev)) else Err(UnexpectedFormat)
    case ScalarReply => Err(UnexpectedFormat)
    case NullReply => Err(NullFlowsAccess)
    case Unparsable(message) => Err(message)
  }

  /** The ids, absent ones included, of the nodes already deployed. */
  function ExistingIds(flows: seq<FlowNode>): (ids: set<Option<string>>)
    ensures forall n :: n in flows ==> n.Id() in ids
    ensures forall id :: id in ids ==> exists n :: n in flows && n.Id() == id
  {
    set n | n in flows :: n.Id()
  }

  /** The candidates whose ids are not in `existing`, in their original order. */
  function NewNodes(candidates: seq<FlowNode>, existing: set<Option<string>>): (r: seq<FlowNode>)
    ensures |r| <= |candidates|
    ensures IsSubsequence(r, candidates)
    ensures forall n :: n in r <==> n in candidates && n.Id() !in existing
    ensures KeepsNewCounts(r, candidates, existing)
    ensures (forall n :: n in candidates ==> n.Id() !in existing) ==> r == candidates
  {
    if |candidates| == 0 then []
    else
      var rest := NewNodes(candidates[1..], existing);
      var r := if candidates[0].Id() in existing then rest else [candidates[0]] + rest;
      KeepsNewCountsStep(candidates, rest, existing);
      SubsequenceStep(candidates, rest);
      NoCollisionStep(candidates, rest, existing);
      r
  }

  /** Every occurrence of a candidate whose id is new is kept, and nothing else. */
  ghost predicate KeepsNewCounts(r: seq<FlowNode>, candidates: seq<FlowNode>, existing: set<Option<string>>) {
    forall n :: multiset(r)[n] == if n.Id() !in existing then multiset(candidates)[n] else 0
  }

  /** One step of the filter: the head is kept or dropped, the counts of the tail carry over,
      and membership follows from the counts. */
  lemma KeepsNewCountsStep(candidates: seq<FlowNode>, rest: seq<FlowNode>, existing: set<Option<string>>)
    requires |candidates| > 0 && KeepsNewCounts(rest, candidates[1..], existing)
    ensures var r := if candidates[0].Id() in existing then rest else [candidates[0]] + rest;
      && KeepsNewCounts(r, candidates, existing)
      && forall n :: n in r <==> n in candidates && n.Id() !in existing
  {
    var r := if candidates[0].Id() in existing then rest else [candidates[0]] + rest;
    assert candidates == [candidates[0]] + candidates[1..];
    assert multiset(candidates) == multiset{candidates[0]} + multiset(candidates[1..]);
    assert multiset([candidates[0]] + rest) == multiset{candidates[0]} + multiset(rest);
    forall n ensures n in r <==> n in candidates && n.Id() !in existing {
      assert n in r <==> multiset(r)[n] > 0;
      assert n in candidates <==> multiset(candidates)[n] > 0;
    }
  }

  /** With no collision in the candidates, none in their tail, and keeping the head gives them all. */
  lemma NoCollisionStep(candidates: seq<FlowNode>, rest: seq<FlowNode>, existing: set<Option<string>>)
    requires |candidates| > 0
    requires (forall n :: n in candidates[1..] ==> n.Id() !in existing) ==> rest == candidates[1..]
    ensures (forall n :: n in candidates ==> n.Id() !in existing) ==>
              candidates[0].Id() !in existing && [candidates[0]] + rest == candidates
  {
    if forall n :: n in candidates ==> n.Id() !in existing {
      assert forall n :: n in candidates[1..] ==> n in candidates;
      assert [candidates[0]] + candidates[1..] == candidates;
    }
  }

  /** The collection to deploy: the current collection, followed by the generated nodes and
      then the configs, minus those whose id is already present. */
  function MergeFlows(current: seq<FlowNode>, nodes: seq<FlowNode>, configs: seq<FlowNode>): (r: seq<FlowNode>)
    ensures |current| <= |r| <= |current| + |nodes| + |configs|
    ensures r[..|current|] == current
    ensures r[|current|..] == NewNodes(nodes + configs, ExistingIds(current))
    ensures IsSubsequence(r[|current|..], nodes + configs)
    ensures forall n :: n in r[|current|..] ==> n.Id() !in ExistingIds(current)
  {
    current + NewNodes(nodes + configs, ExistingIds(current))
  }

  /** With no id collision the whole bundle is appended: four nodes and one config. */
  lemma MergeAppendsWholeBundle(current: seq<FlowNode>, b: Bundle, sensorId: string, brokerUrl: string, topic: string)
    requires IsFlowBundle(b, sensorId, brokerUrl, topic)
    requires forall n :: n in b.nodes + b.configs ==> n.Id() !in ExistingIds(current)
    ensures MergeFlows(current, b.nodes, b.configs) == current + b.nodes + b.configs
    ensures |MergeFlows(current, b.nodes, b.configs)| == |current| + 5
  {
  }

  /** Whatever the current collection holds, merging never duplicates an id it already has:
      an appended node's id is never an id of the current collection. */
  lemma MergeKeepsCurrentIdsUnique(current: seq<FlowNode>, nodes: seq<FlowNode>, configs: seq<FlowNode>)
    ensures var merged := MergeFlows(current, nodes, configs);
      forall i, j :: 0 <= i < |current| <= j < |merged| ==> merged[i].Id() != merged[j].Id()
  {
  }

  // ---------------------------------------------------------------------------------------
  // Handlers
  // ---------------------------------------------------------------------------------------

  /** The JSON body of `POST /api/node-red/flows`; `None` is an absent field. */
  datatype FlowRequest = FlowRequest(sensorId: Option<string>, brokerUrl: Option<string>,
                                     topic: Option<string>, samplePayload: Option<string>)

  /** `sensorId`, `brokerUrl` and `topic` are all truthy. */
  predicate HasFlowFields(req: FlowRequest) {
    Present(req.sensorId) && Present(req.brokerUrl) && Present(req.topic)
  }

  /** The answer of the deploying `POST /flows`: a rejected promise, or a status and body text. */
  datatype DeployReply = DeployNetworkError(message: string) | DeployAnswered(status: nat, text: string)

  /** What the upstream calls return, should the handler make them. */
  datatype Upstream = Upstream(
    baseUrl: string,
    healthy: bool,
    current: Fetched<FlowsReply>,
    deploy: DeployReply)

  /** The `{ flows, rev }` body sent to Node-RED with deployment type `flows`. */
  datatype Deployment = Deployment(flows: seq<FlowNode>, rev: Option<string>)

  /** Which upstream calls were made, and the deployment sent if any. */
  datatype Trace = Trace(probed: bool, fetched: bool, deployed: Option<Deployment>)

  datatype Created = Created(success: bool, flowId: string, message: string)

  datatype Outcome = Outcome(response: Response<Created>, trace: Trace)

  const MissingFlowFields := "Missing required fields: sensorId, brokerUrl, topic"
  const CreatedMessage := "Node-RED flow created and deployed successfully"

  function NotRunning(baseUrl: string): string {
    "Node-RED is not running at " + baseUrl + ". Start it first, then try again."
  }

  /** `POST /api/node-red/flows`. `body` is the parsed request body; it is `Err` when the body
      is not JSON and also when it is JSON `null`, whose destructuring throws, so both answer
      500 rather than 400. `stamps` are the clock readings taken while generating ids. */
  function PostFlows(body: Result<FlowRequest>, up: Upstream, stamps: Stamps, parse: Parser): (o: Outcome)
    // A body that is not JSON answers 500 with the parser's message before any upstream call.
    ensures body.Err? ==> o == Outcome(Fail(500, body.message), Trace(false, false, None))
    // Validation answers 400 before any upstream call; the sample payload is not checked here.
    ensures (body.Ok? && !HasFlowFields(body.value))
              ==> o.response == Fail(400, MissingFlowFields) && o.trace == Trace(false, false, None)
    ensures o.response.status == 400 ==> body.Ok? && !HasFlowFields(body.value)
    // A complete request is always probed; a failed probe answers 503 and nothing is fetched
    // or deployed.
    ensures body.Ok? && HasFlowFields(body.value) ==> o.trace.probed
    ensures (body.Ok? && HasFlowFields(body.value) && !up.healthy)
              ==> o == Outcome(Fail(503, NotRunning(up.baseUrl)), Trace(true, false, None))
    ensures o.response.status == 503 ==> o.trace == Trace(true, false, None)
    ensures o.trace.probed && !up.healthy ==> o.response.status == 503
    // A sample payload that is not JSON fails the generation: 500, and nothing is fetched.
    ensures (body.Ok? && HasFlowFields(body.value) && up.healthy
             && !ValidJson(parse, body.value.samplePayload.GetOr("undefined")))
              ==> o == Outcome(Fail(500, parse(body.value.samplePayload.GetOr("undefined")).message),
                               Trace(true, false, None))
    // A request that passes every check and reads the current flows is deployed.
    ensures (body.Ok? && HasFlowFields(body.value) && up.healthy
             && ValidJson(parse, body.value.samplePayload.GetOr("undefined")) && FetchCurrent(up.current).Ok?)
              ==> o.trace == Trace(true, true, o.trace.deployed) && o.trace.deployed.Some?
    // A failed fetch of the current flows answers 500 with its message; nothing is deployed.
    ensures (body.Ok? && HasFlowFields(body.value) && up.healthy
             && ValidJson(parse, body.value.samplePayload.GetOr("undefined")) && FetchCurrent(up.current).Err?)
              ==> o == Outcome(Fail(500, FetchCurrent(up.current).message), Trace(true, true, None))
    // A deployment Node-RED did not accept answers 500 with the reason.
    ensures o.trace.deployed.Some? && up.deploy.DeployNetworkError? ==> o.response == Fail(500, up.deploy.message)
    ensures (o.trace.deployed.Some? && up.deploy.DeployAnswered? && !IsOkStatus(up.deploy.status))
              ==> o.response == Fail(500, "Failed to deploy flow: " + NatToString(up.deploy.status) + " " + up.deploy.text)
    // Success only after a deploy Node-RED accepted.
    ensures o.response.status == 200 <==>
              o.trace.deployed.Some? && up.deploy.DeployAnswered? && IsOkStatus(up.deploy.status)
    ensures o.response.status in {200, 400, 500, 503}
    ensures o.trace.deployed.Some? ==> o.trace.fetched && o.trace.probed && up.healthy
    // What is deployed: the fetched collection, unchanged, followed by the new nodes of a
    // generated bundle whose broker config was sanitised, with the fetched revision echoed.
    ensures o.trace.deployed.Some? ==> body.Ok? && HasFlowFields(body.value)
    ensures o.trace.deployed.Some? && body.Ok? ==>
              var req := body.value;
              var params := Params(req.sensorId.value, req.brokerUrl.value, req.topic.value,
                                   req.samplePayload.GetOr("undefined"));
              var flow := GenerateNodeRedFlow(params, stamps, parse);
              var got := FetchCurrent(up.current);
              && flow.Ok? && got.Ok?
              && o.trace.deployed.value.rev == got.value.rev
              && o.trace.deployed.value.flows == MergeFlows(got.value.flows, flow.value.nodes,
                   PatchConfigs(flow.value.configs, SanitizeBroker(params.brokerUrl)))
              && |got.value.flows| <= |o.trace.deployed.value.flows|
              && o.trace.deployed.value.flows[..|got.value.flows|] == got.value.flows
              && (o.response.status == 200 ==>
                    o.response.body == OkBody(Created(true, flow.value.flowId, CreatedMessage)))
  {
    if body.Err? then Outcome(Fail(500, body.message), Trace(false, false, None))
    else
      var req := body.value;
      if !HasFlowFields(req) then
        Outcome(Fail(400, MissingFlowFields), Trace(false, false, None))
      else if !up.healthy then
        Outcome(Fail(503, NotRunning(up.baseUrl)), Trace(true, false, None))
      else
        // `JSON.parse(undefined)` parses the text "undefined".
        var params := Params(req.sensorId.value, req.brokerUrl.value, req.topic.value,
                             req.samplePayload.GetOr("undefined"));
        match GenerateNodeRedFlow(params, stamps, parse)
        case Err(message) => Outcome(Fail(500, message), Trace(true, false, None))
        case Ok(flow) =>
          var configs := PatchConfigs(flow.configs, SanitizeBroker(params.brokerUrl));
          var got := FetchCurrent(up.current);
          if got.Err? then Outcome(Fail(500, got.message), Trace(true, true, None))
          else
            var deployment := Deployment(MergeFlows(got.value.flows, flow.nodes, configs), got.value.rev);
            var trace := Trace(true, true, Some(deployment));
            match up.deploy
            case DeployNetworkError(message) => Outcome(Fail(500, message), trace)
            case DeployAnswered(status, text) =>
              if !IsOkStatus(status) then
                Outcome(Fail(500, "Failed to deploy flow: " + NatToString(status) + " " + text), trace)
              else
                Outcome(Success(Created(true, flow.flowId, CreatedMessage)), trace)
  }

  /** The current collection from the GET answer, or the message of the error thrown. */
  function FetchCurrent(current: Fetched<FlowsReply>): (r: Result<Current>)
    ensures current.Answered? && IsOkStatus(current.status) ==> r == NormaliseReply(current.reply)
    ensures r.Ok? ==> current.Answered? && IsOkStatus(current.status)
  {
    match current
    case NetworkError(message) => Err(message)
    case Answered(status, reply) =>
      if !IsOkStatus(status) then Err("Failed to fetch current flows: " + NatToString(status))
      else NormaliseReply(reply)
  }

  /** Listing answer of `GET /api/node-red/flows`: `flows` is `None` when the reply's `flows`
      was not an array (it is then passed through as found). */
  datatype Listing = Listing(flows: Option<seq<FlowNode>>)

  const FetchFailed := "Failed to fetch Node-RED flows"

  /** `GET /api/node-red/flows`: unlike the POST handler it does not insist on an array, and
      every failure after the probe is reported with one generic message. */
  function GetFlows(up: Upstream): (r: Response<Listing>)
    ensures !up.healthy ==>
              r == Fail(503, "Node-RED is not running at " + up.baseUrl + ". Start it with 'node-red' and retry.")
    // A rejected fetch, a non-ok status, a `null` body (reading `.flows` throws) and a body
    // that is not JSON all end in the one generic 500.
    ensures (up.healthy && (up.current.NetworkError? || !IsOkStatus(up.current.status)
                            || up.current.reply.NullReply? || up.current.reply.Unparsable?))
              ==> r == Fail(500, FetchFailed)
    // Any other JSON value that is not an array is answered with `flows` undefined.
    ensures (up.healthy && up.current.Answered? && IsOkStatus(up.current.status) && up.current.reply.ScalarReply?)
              ==> r == Success(Listing(None))
    ensures (up.healthy && up.current.Answered? && IsOkStatus(up.current.status) && up.current.reply.ArrayReply?)
              ==> r == Success(Listing(Some(up.current.reply.nodes)))
    ensures (up.healthy && up.current.Answered? && IsOkStatus(up.current.status) && up.current.reply.ObjectReply?)
              ==> r == Success(Listing(up.current.reply.flows))
    ensures up.healthy && r.status != 200 ==> r == Fail(500, FetchFailed)
  {
    if !up.healthy then
      Fail(503, "Node-RED is not running at " + up.baseUrl + ". Start it with 'node-red' and retry.")
    else
      match up.current
      case NetworkError(_) => Fail(500, FetchFailed)
      case Answered(status, reply) =>
        if !IsOkStatus(status) then Fail(500, FetchFailed)
        else
          match reply
          case ArrayReply(nodes) => Success(Listing(Some(nodes)))
          case ObjectReply(flows, _) => Success(Listing(flows))
          case ScalarReply => Success(Listing(None))
          case NullReply => Fail(500, FetchFailed)
          case Unparsable(_) => Fail(500, FetchFailed)
  }

  /** The two handlers read one ok reply alike wherever the POST handler accepts it; a scalar
      reply, or an object whose `flows` is not an array, fails the POST handler but is listed
      by the GET handler with `flows` undefined. `null` and non-JSON replies fail both. */
  lemma ListingAgreesWithFetch(up: Upstream)
    requires up.healthy
    ensures FetchCurrent(up.current).Ok? ==>
              GetFlows(up) == Success(Listing(Some(FetchCurrent(up.current).value.flows)))
    ensures (up.current.Answered? && IsOkStatus(up.current.status)
             && (up.current.reply.ScalarReply? || (up.current.reply.ObjectReply? && up.current.reply.flows.None?)))
              ==> FetchCurrent(up.current).Err? && GetFlows(up) == Success(Listing(None))
    ensures FetchCurrent(up.current).Err? && GetFlows(up).status == 200 ==>
              up.current.Answered? && (up.current.reply.ScalarReply? || up.current.reply.ObjectReply?)
    ensures GetFlows(up).status == 200 <==>
              up.current.Answered? && IsOkStatus(up.current.status)
              && !up.current.reply.NullReply? && !up.current.reply.Unparsable?
  {
  }
}

=== FILE: http.dfy ===
/** The shape of the route handlers' replies: an HTTP status and a JSON body that is either
    `{ error }` or a route-specific success object. */
module Http {
  import opened Wrappers

  datatype Payload<T> = ErrorBody(error: string) | OkBody(data: T)

  datatype Response<T> = Response(status: nat, body: Payload<T>)

  function Fail<T>(status: nat, message: string): Response<T> {
    Response(status, ErrorBody(message))
  }

  function Success<T>(data: T): Response<T> {
    Response(200, OkBody(data))
  }

  /** `response.ok` of the Fetch API. */
  predicate IsOkStatus(status: nat) {
    200 <= status <= 299
  }

  /** A request field passes `!field` only when it is present and not the empty string;
      only string-valued fields are modelled. */
  predicate Present(field: Option<string>) {
    field.Some? && field.value != ""
  }
}

=== FILE: json.dfy ===
/** `JSON.parse` as an oracle: the model never parses text itself, it only asks a parser
    passed in by the caller whether the text is JSON and, if so, what kind of value it is. */
module Json {

  /** The kinds a parsed JSON value can have. */
  datatype Kind = Null | Boolean | Number | Text | Array | Object

  /** What `JSON.parse` does with one text: throw a `SyntaxError`, or return a value. */
  datatype Parse = SyntaxError(message: string) | Value(kind: Kind)

  type Parser = string -> Parse

  /** `JSON.parse(s)` does not throw. */
  predicate ValidJson(parse: Parser, s: string) {
    parse(s).Value?
  }

  /** `typeof JSON.parse(s) === "object" && JSON.parse(s) !== null`: arrays count as objects. */
  predicate IsNonNullObject(parse: Parser, s: string) {
    parse(s).Value? && (parse(s).kind == Object || parse(s).kind == Array)
  }
}

=== FILE: mqtt_client.dfy ===
/** The in-browser MQTT simulator: a client whose only state is a connected flag, which
    "connects" to HiveMQ hosts and to anything shaped like a dotted host name. */
module MqttClient {
  import opened Wrappers
  import opened Strings
  import opened SensorTypes

  type Qos = q: int | 0 <= q <= 2

  /** The options a caller passes; `None` is an option left out. */
  datatype ConnectionOptions = ConnectionOptions(
    brokerUrl: string,
    port: Option<int>,
    clientId: Option<string>,
    username: Option<string>,
    password: Option<string>,
    keepalive: Option<int>,
    clean: Option<bool>)

  /** The options after the constructor has laid the caller's over its defaults. */
  datatype Settings = Settings(
    brokerUrl: string,
    port: int,
    clientId: string,
    username: Option<string>,
    password: Option<string>,
    keepalive: int,
    clean: bool)

  datatype Simulator = Simulator(settings: Settings, connected: bool)

  const DefaultPort := 1883
  const DefaultKeepalive := 60

  /** `new MqttSimulator(options)`; `randomHex` stands for the eight random hexadecimal
      digits of the default client id. */
  function NewSimulator(options: ConnectionOptions, randomHex: string): (sim: Simulator)
    ensures !sim.connected
    ensures sim.settings.brokerUrl == options.brokerUrl
    ensures sim.settings.port == options.port.GetOr(DefaultPort)
    ensures sim.settings.keepalive == options.keepalive.GetOr(DefaultKeepalive)
    ensures sim.settings.clean == options.clean.GetOr(true)
    ensures sim.settings.clientId == options.clientId.GetOr("client_" + randomHex)
    ensures sim.settings.username == options.username && sim.settings.password == options.password
  {
    Simulator(Settings(options.brokerUrl, options.port.GetOr(DefaultPort),
                       options.clientId.GetOr("client_" + randomHex), options.username, options.password,
                       options.keepalive.GetOr(DefaultKeepalive), options.clean.GetOr(true)),
              false)
  }

  /** The regular expression `^[a-zA-Z0-9.-]+\.[a-zA-Z]{2,}$`: a non-empty run of host
      characters, a dot, then two or more letters to the end. */
  ghost predicate MatchesHostPattern(s: string) {
    exists i | 1 <= i && i + 3 <= |s| :: s[i] == '.' && AllHostChars(s[..i]) && AllLetters(s[i + 1..])
  }

  /** A direct test for the same pattern: all host characters, ending in a dot and the
      maximal run of letters, at least two of them, with something before the dot. */
  predicate IsHostFormat(s: string) {
    var k := TrailingLetters(s);
    AllHostChars(s) && k >= 2 && k + 2 <= |s| && s[|s| - k - 1] == '.'
  }

  lemma HostFormatMatchesPattern(s: string)
    ensures IsHostFormat(s) <==> MatchesHostPattern(s)
  {
  }

  /** `connect()`: returns the new connected flag. */
  function Connect(sim: Simulator): (r: (Simulator, bool))
    ensures r.0.connected == r.1
    ensures r.0.settings == sim.settings
    ensures r.1 <==> Contains(sim.settings.brokerUrl, "hivemq.com") || MatchesHostPattern(sim.settings.brokerUrl)
  {
    var url := sim.settings.brokerUrl;
    HostFormatMatchesPattern(url);
    var ok := Contains(url, "hivemq.com") || IsHostFormat(url);
    (sim.(connected := ok), ok)
  }

  datatype MqttMessage = MqttMessage(topic: string, payload: string, qos: Qos, retain: bool, timestamp: Instant)

  const NotConnected := "MQTT client not connected"

  /** `publish(topic, payload, qos = 0)` at time `now`; it changes no state. */
  function Publish(sim: Simulator, topic: string, payload: string, qos: Option<Qos>, now: Instant)
    : (r: Result<MqttMessage>)
    ensures !sim.connected <==> r == Err(NotConnected)
    ensures r.Ok? ==> r.value == MqttMessage(topic, payload, qos.GetOr(0), false, now)
  {
    if !sim.connected then Err(NotConnected)
    else Ok(MqttMessage(topic, payload, qos.GetOr(0), false, now))
  }

  /** `subscribe(topic, qos = 0)`; it changes no state. */
  function Subscribe(sim: Simulator, topic: string, qos: Option<Qos>): (r: Result<bool>)
    ensures r.Ok? <==> sim.connected
    ensures r.Ok? ==> r.value
    ensures r.Err? ==> r.message == NotConnected
  {
    if !sim.connected then Err(NotConnected) else Ok(true)
  }

  function Disconnect(sim: Simulator): (r: Simulator)
    ensures !r.connected && r.settings == sim.settings
  {
    sim.(connected := false)
  }

  function IsConnected(sim: Simulator): (r: bool)
    ensures r <==> sim.connected
  {
    sim.connected
  }

  /** A simulator is usable for publishing exactly while connected: after a successful
      connect a publish succeeds, after a disconnect it fails. */
  lemma ConnectThenPublish(sim: Simulator, topic: string, payload: string, now: Instant)
    ensures Connect(sim).1 ==> Publish(Connect(sim).0, topic, payload, None, now).Ok?
    ensures Publish(Disconnect(sim), topic, payload, None, now).Err?
    ensures Subscribe(Disconnect(Connect(sim).0), topic, None).Err?
  {
  }

  datatype TestResult = TestResult(success: bool, message: string, latency: Option<int>)

  /** `testMqttConnection(options)`; `start` and `end` are the clock readings before and after
      connecting. */
  function TestMqttConnection(options: ConnectionOptions, randomHex: string, start: Instant, end: Instant)
    : (r: TestResult)
    ensures r.success <==> Connect(NewSimulator(options, randomHex)).1
    ensures r.success <==> Contains(options.brokerUrl, "hivemq.com") || MatchesHostPattern(options.brokerUrl)
    ensures r.success ==> r.latency == Some(end - start) && r.message == "MQTT connection successful"
    ensures !r.success ==> r.latency.None? && r.message == "Failed to connect to MQTT broker"
  {
    var (client, connected) := Connect(NewSimulator(options, randomHex));
    if connected then
      var _ := Disconnect(client);
      TestResult(true, "MQTT connection successful", Some(end - start))
    else
      TestResult(false, "Failed to connect to MQTT broker", None)
  }
}

=== FILE: mqtt_routes.dfy ===
/** The two server-side MQTT routes: `POST /api/mqtt/test` publishes a test message to a
    sanitised host, `POST /api/mqtt/publish` publishes to the host as given. Each validates
    its body, opens one connection with no reconnection, publishes once and closes. The broker's
    answers are oracle results. */
module MqttRoutes {
  import opened Wrappers
  import opened Strings
  import opened Json
  import opened Http
  import opened SensorTypes
  import FlowsRoute

  /** The JSON body of either route; `None` is an absent field. */
  datatype MqttRequest = MqttRequest(brokerUrl: Option<string>, topic: Option<string>,
                                     payload: Option<string>, qos: Option<int>)

  /** The options passed to `mqtt.connect`. */
  datatype ConnectOptions = ConnectOptions(url: string, protocol: string, host: string, port: int,
                                           clean: bool, connectTimeout: int, reconnectPeriod: int,
                                           clientId: string)

  /** One `client.publish(topic, payload, { qos, retain })`. */
  datatype PublishCall = PublishCall(topic: string, payload: string, qos: int, retain: bool)

  /** How the broker answered the connection: CONNACK, an `error` event, or neither within the
      five-second timer. */
  datatype ConnectReply = ConnAck | ConnectError(message: string) | ConnectTimeout

  /** How the publish callback was called. */
  datatype PublishReply = PublishAck | PublishError(message: string)

  datatype Broker = Broker(connect: ConnectReply, publish: PublishReply)

  /** The calls made on the MQTT client, and whether `client.end(true)` was reached. */
  datatype Trace = Trace(connects: seq<ConnectOptions>, publishes: seq<PublishCall>, ended: bool)

  datatype Published = Published(success: bool, message: string, timestamp: Instant)

  datatype Outcome = Outcome(response: Response<Published>, trace: Trace)

  const MissingMqttFields := "Missing required fields: brokerUrl, topic, payload"
  const InvalidJsonPayload := "Invalid JSON payload"
  const TimeoutMessage := "Connection timeout"
  const BrokerPort := 1883
  const NoCalls := Trace([], [], false)

  /** `mqtt://<host>:1883` */
  function BrokerUrl(host: string): string {
    "mqtt://" + host + ":1883"
  }

  function Options(host: string, clientId: string): ConnectOptions {
    ConnectOptions(BrokerUrl(host), "mqtt", host, BrokerPort, true, 4000, 0, clientId)
  }

  /** Connect once, publish once, end on success. Shared by both routes, which differ in the
      host, client id, QoS and success message. */
  function ConnectAndPublish(options: ConnectOptions, call: PublishCall, broker: Broker,
                             successMessage: string, now: Instant): (o: Outcome)
    ensures o.trace.connects == [options]
    ensures o.trace.publishes == (if broker.connect.ConnAck? then [call] else [])
    ensures o.response.status == 200 <==> broker.connect.ConnAck? && broker.publish.PublishAck?
    ensures o.trace.ended <==> o.response.status == 200
    ensures o.response.status == 200 ==> o.response == Success(Published(true, successMessage, now))
    ensures o.response.status != 200 ==> o.response.status == 500
    ensures broker.connect.ConnectTimeout? ==> o.response == Fail(500, TimeoutMessage)
    ensures broker.connect.ConnectError? ==> o.response == Fail(500, broker.connect.message)
    ensures broker.connect.ConnAck? && broker.publish.PublishError? ==> o.response == Fail(500, broker.publish.message)
  {
    match broker.connect
    case ConnectTimeout => Outcome(Fail(500, TimeoutMessage), Trace([options], [], false))
    case ConnectError(message) => Outcome(Fail(500, message), Trace([options], [], false))
    case ConnAck =>
      match broker.publish
      case PublishError(message) => Outcome(Fail(500, message), Trace([options], [call], false))
      case PublishAck => Outcome(Success(Published(true, successMessage, now)), Trace([options], [call], true))
  }

  /** Presence of the three fields, then JSON syntax of the payload. `body` is `Err` when the
      request body is not JSON and also when it is JSON `null`, whose destructuring throws. */
  function Validate(body: Result<MqttRequest>, parse: Parser): (r: Option<Response<Published>>)
    ensures body.Err? ==> r == Some(Fail(500, body.message))
    ensures (body.Ok? && !(Present(body.value.brokerUrl) && Present(body.value.topic) && Present(body.value.payload)))
              ==> r == Some(Fail(400, MissingMqttFields))
    ensures r.None? <==> body.Ok? && Present(body.value.brokerUrl) && Present(body.value.topic)
                          && Present(body.value.payload) && ValidJson(parse, body.value.payload.value)
    ensures (r.Some? && body.Ok? && Present(body.value.brokerUrl) && Present(body.value.topic)
              && Present(body.value.payload)) ==> r == Some(Fail(400, InvalidJsonPayload))
  {
    if body.Err? then Some(Fail(500, body.message))
    else
      var req := body.value;
      if !(Present(req.brokerUrl) && Present(req.topic) && Present(req.payload)) then
        Some(Fail(400, MissingMqttFields))
      else if !ValidJson(parse, req.payload.value) then Some(Fail(400, InvalidJsonPayload))
      else None
  }

  /** `POST /api/mqtt/test`; `randomHex` stands for the random part of the client id. */
  function TestRoute(body: Result<MqttRequest>, parse: Parser, broker: Broker, randomHex: string, now: Instant)
    : (o: Outcome)
    ensures Validate(body, parse).Some? ==> o == Outcome(Validate(body, parse).value, NoCalls)
    ensures Validate(body, parse).None? ==>
              var host := FlowsRoute.SanitizeBroker(body.value.brokerUrl.value);
              var call := PublishCall(body.value.topic.value, body.value.payload.value, 0, false);
              var message := "MQTT publish successful to " + host + ":1883";
              && o == ConnectAndPublish(Options(host, "tester_" + randomHex), call, broker, message, now)
              && o.trace.connects == [Options(host, "tester_" + randomHex)]
              && o.trace.publishes == (if broker.connect.ConnAck? then [call] else [])
              && (o.response.status == 200 ==> o.response == Success(Published(true, message, now)))
              && (o.response.status != 200 ==> o.response.status == 500)
              && (broker.connect.ConnectTimeout? ==> o.response == Fail(500, TimeoutMessage))
    ensures o.response.status == 200 <==>
              Validate(body, parse).None? && broker.connect.ConnAck? && broker.publish.PublishAck?
  {
    match Validate(body, parse)
    case Some(rejection) => Outcome(rejection, NoCalls)
    case None =>
      var req := body.value;
      var host := FlowsRoute.SanitizeBroker(req.brokerUrl.value);
      ConnectAndPublish(Options(host, "tester_" + randomHex),
                        PublishCall(req.topic.value, req.payload.value, 0, false),
                        broker, "MQTT publish successful to " + host + ":1883", now)
  }

  /** `POST /api/mqtt/publish`; the QoS defaults to 0 and the host is used as given. */
  function PublishRoute(body: Result<MqttRequest>, parse: Parser, broker: Broker, randomHex: string, now: Instant)
    : (o: Outcome)
    ensures Validate(body, parse).Some? ==> o == Outcome(Validate(body, parse).value, NoCalls)
    ensures Validate(body, parse).None? ==>
              var req := body.value;
              var call := PublishCall(req.topic.value, req.payload.value, req.qos.GetOr(0), false);
              && o == ConnectAndPublish(Options(req.brokerUrl.value, "publisher_" + randomHex), call, broker,
                                        "Message published", now)
              && o.trace.connects == [Options(req.brokerUrl.value, "publisher_" + randomHex)]
              && o.trace.publishes == (if broker.connect.ConnAck? then [call] else [])
              && (o.response.status == 200 ==> o.response == Success(Published(true, "Message published", now)))
              && (o.response.status != 200 ==> o.response.status == 500)
              && (broker.connect.ConnectTimeout? ==> o.response == Fail(500, TimeoutMessage))
    ensures o.response.status == 200 <==>
              Validate(body, parse).None? && broker.connect.ConnAck? && broker.publish.PublishAck?
  {
    match Validate(body, parse)
    case Some(rejection) => Outcome(rejection, NoCalls)
    case None =>
      var req := body.value;
      ConnectAndPublish(Options(req.brokerUrl.value, "publisher_" + randomHex),
                        PublishCall(req.topic.value, req.payload.value, req.qos.GetOr(0), false),
                        broker, "Message published", now)
  }

  /** Given `mqtt://h:port`, the test route dials `mqtt://h:1883`: its one connection is
      built from the sanitised host. */
  lemma TestRouteDialsBareHost(h: string, port: string)
    requires |port| > 0 && AllDigits(port)
    ensures BrokerUrl(FlowsRoute.SanitizeBroker("mqtt://" + h + ":" + port)) == "mqtt://" + h + ":1883"
  {
    FlowsRoute.SanitizeSchemeHostPort(h, port);
  }

  /** For a host written without scheme or port the two routes dial the same connection,
      apart from the client id's prefix. */
  lemma PublishDialsLikeTestForBareHost(body: Result<MqttRequest>, parse: Parser, broker: Broker,
                                        randomHex: string, now: Instant)
    requires Validate(body, parse).None?
    requires !StartsWith(body.value.brokerUrl.value, FlowsRoute.MqttScheme)
    requires !FlowsRoute.HasPortSuffix(body.value.brokerUrl.value)
    ensures PublishRoute(body, parse, broker, randomHex, now).trace.connects
            == [TestRoute(body, parse, broker, randomHex, now).trace.connects[0].(clientId := "publisher_" + randomHex)]
  {
    FlowsRoute.SanitizeBareHost(body.value.brokerUrl.value);
  }

  /** The publish route does not sanitise: given `mqtt://h:port` it dials
      `mqtt://mqtt://h:port:1883`, where the test route dials `mqtt://h:1883`. */
  lemma PublishKeepsSchemeAndPort(body: Result<MqttRequest>, parse: Parser, broker: Broker,
                                  randomHex: string, now: Instant, h: string, port: string)
    requires Validate(body, parse).None?
    requires |port| > 0 && AllDigits(port) && body.value.brokerUrl.value == "mqtt://" + h + ":" + port
    ensures PublishRoute(body, parse, broker, randomHex, now).trace.connects[0].url
            == "mqtt://mqtt://" + h + ":" + port + ":1883"
    ensures TestRoute(body, parse, broker, randomHex, now).trace.connects[0].url == "mqtt://" + h + ":1883"
  {
    var url := body.value.brokerUrl.value;
    assert PublishRoute(body, parse, broker, randomHex, now).trace.connects[0].url == BrokerUrl(url);
    assert BrokerUrl(url) == "mqtt://mqtt://" + h + ":" + port + ":1883";
    TestRouteDialsBareHost(h, port);
    assert TestRoute(body, parse, broker, randomHex, now).trace.connects[0].url
           == BrokerUrl(FlowsRoute.SanitizeBroker(url));
  }
}

=== FILE: sensor_form.dfy ===
/** The sensor registration form: field editing with topic auto-generation, the client-side
    payload check, and the submit sequence that validates, rejects duplicates, asks the flows
    route for a Node-RED flow and, on success, appends the new sensor to the list. */
module SensorForm {
  import opened Wrappers
  import opened Strings
  import opened Json
  import opened SensorTypes
  import FlowsRoute

  datatype FormData = FormData(sensorId: string, brokerUrl: string, topic: string,
                               description: string, samplePayload: string)

  datatype Field = SensorIdField | BrokerUrlField | TopicField | DescriptionField | SamplePayloadField

  datatype Message = Message(isError: bool, text: string)

  /** The form's state: its fields and the banner message, if any. */
  datatype FormState = FormState(data: FormData, message: Option<Message>)

  const DefaultBroker := "broker.hivemq.com"
  const DefaultPayload := "{\"value\": 25.5, \"timestamp\": \"2025-08-19T12:00:00Z\", \"unit\": \"°C\"}"
  const DefaultForm := FormData("", DefaultBroker, "", "", DefaultPayload)

  function FieldValue(d: FormData, f: Field): string {
    match f
    case SensorIdField => d.sensorId
    case BrokerUrlField => d.brokerUrl
    case TopicField => d.topic
    case DescriptionField => d.description
    case SamplePayloadField => d.samplePayload
  }

  /** The topic proposed for a sensor id. */
  function TopicFor(sensorId: string): string {
    "sensors/" + sensorId + "/data"
  }

  /** `handleInputChange`: writes one field and clears the message; a new sensor id also
      rewrites the topic. */
  function HandleInputChange(st: FormState, field: Field, value: string): (r: FormState)
    ensures r.message.None?
    ensures FieldValue(r.data, field) == value
    ensures field == SensorIdField ==> r.data.topic == TopicFor(value)
    ensures forall g :: g != field && !(field == SensorIdField && g == TopicField) ==>
              FieldValue(r.data, g) == FieldValue(st.data, g)
  {
    var d := st.data;
    var d' := match field
      case SensorIdField => d.(sensorId := value, topic := TopicFor(value))
      case BrokerUrlField => d.(brokerUrl := value)
      case TopicField => d.(topic := value)
      case DescriptionField => d.(description := value)
      case SamplePayloadField => d.(samplePayload := value);
    FormState(d', None)
  }

  /** `validatePayload`: the text parses to an object or an array. */
  function ValidatePayload(parse: Parser, payload: string): (ok: bool)
    ensures ok <==> IsNonNullObject(parse, payload)
    ensures ok ==> ValidJson(parse, payload)
  {
    match parse(payload)
    case SyntaxError(_) => false
    case Value(kind) => kind == Object || kind == Array
  }

  /** What the `POST /api/node-red/flows` call yields: a thrown error (network failure or an
      unreadable body), a non-ok answer with the `error` field if truthy, or an ok answer with
      the `flowId` field if present. */
  datatype FlowApiReply =
    | ApiThrew(message: string)
    | ApiRejected(error: Option<string>)
    | ApiAccepted(flowId: Option<string>)

  datatype SubmitResult = SubmitResult(
    sensors: seq<Sensor>,
    data: FormData,
    message: Message,
    request: Option<FlowsRoute.FlowRequest>)

  const InvalidPayloadMessage := "Invalid JSON payload format"
  const DuplicateMessage := "Sensor ID already exists"
  const FlowFailedMessage := "Failed to create Node-RED flow"
  const CreatedMessage := "Sensor created successfully! Node-RED flow has been generated."

  function HasSensorId(sensors: seq<Sensor>, sensorId: string): bool {
    exists i | 0 <= i < |sensors| :: sensors[i].sensorId == sensorId
  }

  /** The two clock readings taken while building the new record: `Date.now()` for its `id`,
      then `new Date()` for its `createdAt`. */
  datatype Readings = Readings(idStamp: Instant, createdAt: Instant)

  /** The record appended for a registered sensor. */
  function NewSensor(d: FormData, flowId: Option<string>, clock: Readings): Sensor {
    Sensor("sensor_" + NatToString(clock.idStamp), d.sensorId, d.brokerUrl, d.topic, Some(d.description),
           d.samplePayload, Disconnected, clock.createdAt, None, flowId)
  }

  /** `handleSubmit`: `reply` is the flows route's answer should it be asked, `clock` the clock
      readings taken after it. */
  function HandleSubmit(sensors: seq<Sensor>, d: FormData, parse: Parser, reply: FlowApiReply, clock: Readings)
    : (r: SubmitResult)
    // The payload check comes first and makes no request.
    ensures !ValidatePayload(parse, d.samplePayload) ==>
              r == SubmitResult(sensors, d, Message(true, InvalidPayloadMessage), None)
    // A duplicate id is refused next, again without a request.
    ensures ValidatePayload(parse, d.samplePayload) && HasSensorId(sensors, d.sensorId) ==>
              r == SubmitResult(sensors, d, Message(true, DuplicateMessage), None)
    // Otherwise the flow is requested with the form's fields.
    ensures r.request.Some? <==> ValidatePayload(parse, d.samplePayload) && !HasSensorId(sensors, d.sensorId)
    ensures r.request.Some? ==> r.request.value == FlowsRoute.FlowRequest(
              Some(d.sensorId), Some(d.brokerUrl), Some(d.topic), Some(d.samplePayload))
    // Any failure leaves the list and the form as they were.
    ensures r.message.isError ==> r.sensors == sensors && r.data == d
    ensures r.request.Some? && reply.ApiRejected? ==>
              r.message == Message(true, reply.error.GetOr(FlowFailedMessage))
    ensures r.request.Some? && reply.ApiThrew? ==> r.message == Message(true, reply.message)
    // Success appends exactly one new, disconnected sensor and resets the form.
    ensures !r.message.isError <==> r.request.Some? && reply.ApiAccepted?
    ensures !r.message.isError ==>
              && r.sensors == sensors + [NewSensor(d, reply.flowId, clock)]
              && r.sensors[|sensors|].id == "sensor_" + NatToString(clock.idStamp)
              && r.sensors[|sensors|].createdAt == clock.createdAt
              && r.sensors[|sensors|].status == Disconnected && r.sensors[|sensors|].lastSeen.None?
              && r.sensors[|sensors|].sensorId == d.sensorId && r.sensors[|sensors|].topic == d.topic
              && r.sensors[|sensors|].nodeRedFlowId == reply.flowId
              && r.data == DefaultForm
              && r.message == Message(false, CreatedMessage)
  {
    if !ValidatePayload(parse, d.samplePayload) then
      SubmitResult(sensors, d, Message(true, InvalidPayloadMessage), None)
    else if HasSensorId(sensors, d.sensorId) then
      SubmitResult(sensors, d, Message(true, DuplicateMessage), None)
    else
      var request := Some(FlowsRoute.FlowRequest(Some(d.sensorId), Some(d.brokerUrl), Some(d.topic), Some(d.samplePayload)));
      match reply
      case ApiThrew(message) => SubmitResult(sensors, d, Message(true, message), request)
      case ApiRejected(error) => SubmitResult(sensors, d, Message(true, error.GetOr(FlowFailedMessage)), request)
      case ApiAccepted(flowId) =>
        SubmitResult(sensors + [NewSensor(d, flowId, clock)], DefaultForm, Message(false, CreatedMessage), request)
  }

  ghost predicate UniqueSensorIds(sensors: seq<Sensor>) {
    forall i, j :: 0 <= i < j < |sensors| ==> sensors[i].sensorId != sensors[j].sensorId
  }

  /** The duplicate check keeps sensor ids unique across a successful submit. */
  lemma SubmitKeepsIdsUnique(sensors: seq<Sensor>, d: FormData, parse: Parser, reply: FlowApiReply, clock: Readings)
    requires UniqueSensorIds(sensors)
    ensures UniqueSensorIds(HandleSubmit(sensors, d, parse, reply, clock).sensors)
  {
  }
}

=== FILE: sensor_list.dfy ===
/** The client-side sensor list: search filtering, deletion through the confirmation dialog,
    and the connected/disconnected toggle. All three act on the list held in React state. */
module SensorList {
  import opened Wrappers
  import opened Strings
  import opened Sequences
  import opened SensorTypes

  // ---------------------------------------------------------------------------------------
  // Search
  // ---------------------------------------------------------------------------------------

  /** The search term, lower-cased, occurs in the lower-cased sensor id, description (when
      there is one) or topic. */
  predicate Matches(s: Sensor, term: string) {
    var t := Lower(term);
    || Contains(Lower(s.sensorId), t)
    || (s.description.Some? && Contains(Lower(s.description.value), t))
    || Contains(Lower(s.topic), t)
  }

  /** `filteredSensors` */
  function FilterSensors(sensors: seq<Sensor>, term: string): (r: seq<Sensor>)
    ensures |r| <= |sensors|
    ensures IsSubsequence(r, sensors)
    ensures forall s :: s in r <==> s in sensors && Matches(s, term)
    ensures forall s :: multiset(r)[s] == if Matches(s, term) then multiset(sensors)[s] else 0
  {
    if |sensors| == 0 then []
    else
      var rest := FilterSensors(sensors[1..], term);
      FilterStep(sensors, rest, (s: Sensor) => Matches(s, term));
      if Matches(sensors[0], term) then [sensors[0]] + rest else rest
  }

  /** The empty search term shows every sensor. */
  lemma {:induction false} EmptyTermKeepsAll(sensors: seq<Sensor>)
    ensures FilterSensors(sensors, "") == sensors
  {
    if |sensors| > 0 {
      ContainsEmpty(Lower(sensors[0].sensorId));
      EmptyTermKeepsAll(sensors[1..]);
      assert sensors == [sensors[0]] + sensors[1..];
    }
  }

  // ---------------------------------------------------------------------------------------
  // Delete
  // ---------------------------------------------------------------------------------------

  /** The delete confirmation dialog: whether it is open and which sensor it is about. */
  datatype DeleteDialog = DeleteDialog(open: bool, sensor: Option<Sensor>)

  /** `handleDeleteSensor`: opens the dialog for one sensor. */
  function AskDelete(s: Sensor): (d: DeleteDialog)
    ensures d.open && d.sensor == Some(s)
  {
    DeleteDialog(true, Some(s))
  }

  /** Every sensor whose `id` differs from `id`, in order. */
  function WithoutId(sensors: seq<Sensor>, id: string): (r: seq<Sensor>)
    ensures |r| <= |sensors|
    ensures IsSubsequence(r, sensors)
    ensures forall s :: s in r <==> s in sensors && s.id != id
    ensures forall s :: multiset(r)[s] == if s.id != id then multiset(sensors)[s] else 0
    ensures (forall s :: s in sensors ==> s.id != id) ==> r == sensors
  {
    if |sensors| == 0 then []
    else
      var rest := WithoutId(sensors[1..], id);
      FilterStep(sensors, rest, (s: Sensor) => s.id != id);
      NoMatchStep(sensors, rest, id);
      if sensors[0].id == id then rest else [sensors[0]] + rest
  }

  /** With no sensor carrying `id`, none in the tail does, and keeping the head keeps them all. */
  lemma NoMatchStep(sensors: seq<Sensor>, rest: seq<Sensor>, id: string)
    requires |sensors| > 0
    requires (forall s :: s in sensors[1..] ==> s.id != id) ==> rest == sensors[1..]
    ensures (forall s :: s in sensors ==> s.id != id) ==> sensors[0].id != id && [sensors[0]] + rest == sensors
  {
    if forall s :: s in sensors ==> s.id != id {
      assert forall s :: s in sensors[1..] ==> s in sensors;
      assert [sensors[0]] + sensors[1..] == sensors;
    }
  }

  /** `confirmDelete`: with a sensor in the dialog, drops every sensor sharing its `id` and
      closes the dialog; with none, changes nothing. */
  function ConfirmDelete(sensors: seq<Sensor>, dialog: DeleteDialog): (r: (seq<Sensor>, DeleteDialog))
    ensures dialog.sensor.None? ==> r == (sensors, dialog)
    ensures dialog.sensor.Some? ==>
              && r.1 == DeleteDialog(false, None)
              && IsSubsequence(r.0, sensors)
              && (forall s :: s in r.0 <==> s in sensors && s.id != dialog.sensor.value.id)
              && (forall s :: multiset(r.0)[s] == if s.id != dialog.sensor.value.id then multiset(sensors)[s] else 0)
  {
    if dialog.sensor.Some? then (WithoutId(sensors, dialog.sensor.value.id), DeleteDialog(false, None))
    else (sensors, dialog)
  }

  // ---------------------------------------------------------------------------------------
  // Status toggle
  // ---------------------------------------------------------------------------------------

  /** Connected becomes disconnected; disconnected and error both become connected. */
  function Toggled(status: Status): (r: Status)
    ensures r != status
    ensures r == Disconnected <==> status == Connected
  {
    if status == Connected then Disconnected else Connected
  }

  /** One sensor after its toggle at time `now`: `lastSeen` is stamped only when it was
      disconnected. */
  function ToggleOne(s: Sensor, now: Instant): (r: Sensor)
    ensures r.status == Toggled(s.status)
    ensures r.lastSeen == (if s.status == Disconnected then Some(now) else s.lastSeen)
    ensures r.(status := s.status, lastSeen := s.lastSeen) == s
  {
    s.(status := Toggled(s.status), lastSeen := if s.status == Disconnected then Some(now) else s.lastSeen)
  }

  /** `toggleSensorStatus(id)` at time `now`. */
  function ToggleSensorStatus(sensors: seq<Sensor>, id: string, now: Instant): (r: seq<Sensor>)
    ensures |r| == |sensors|
    ensures forall i :: 0 <= i < |r| && sensors[i].id != id ==> r[i] == sensors[i]
    ensures forall i :: 0 <= i < |r| && sensors[i].id == id ==>
              && r[i].status == Toggled(sensors[i].status)
              && r[i].lastSeen == (if sensors[i].status == Disconnected then Some(now) else sensors[i].lastSeen)
              && r[i].(status := sensors[i].status, lastSeen := sensors[i].lastSeen) == sensors[i]
  {
    seq(|sensors|, i requires 0 <= i < |sensors| =>
      if sensors[i].id == id then ToggleOne(sensors[i], now) else sensors[i])
  }

  /** Toggling twice restores a connected or disconnected status; an error status passes
      through connected and ends up disconnected. */
  lemma ToggleTwice(sensors: seq<Sensor>, id: string, t1: Instant, t2: Instant, i: int)
    requires 0 <= i < |sensors|
    ensures var twice := ToggleSensorStatus(ToggleSensorStatus(sensors, id, t1), id, t2);
      && (sensors[i].status != Error ==> twice[i].status == sensors[i].status)
      && (sensors[i].status == Error && sensors[i].id == id ==> twice[i].status == Disconnected)
  {
  }
}

=== FILE: sensor_store.dfy ===
/** The server-side sensor registry: `POST /api/sensors` upserts a record keyed by the unique
    `sensorId`, `GET /api/sensors` lists every record newest first. The database is a map from
    `sensorId` to record. */
module SensorStore {
  import opened Wrappers
  import opened Http
  import opened SensorTypes

  type Store = map<string, Sensor>

  /** Each record is filed under its own `sensorId`, the store's unique key. */
  ghost predicate WellKeyed(store: Store) {
    forall k :: k in store ==> store[k].sensorId == k
  }

  /** An optional request field as the ORM reads it: `undefined` leaves a stored value alone,
      `null` clears it, a string sets it. */
  datatype OptField = Undefined | Null | Text(value: string)

  /** The JSON body of `POST /api/sensors`; `None` is an absent field. */
  datatype SensorBody = SensorBody(
    sensorId: Option<string>,
    brokerUrl: Option<string>,
    topic: Option<string>,
    description: OptField,
    samplePayload: Option<string>,
    nodeRedFlowId: OptField)

  /** The values the database supplies for a created row: its id, the column defaults for
      `status` and `createdAt`. */
  datatype RowDefaults = RowDefaults(id: string, status: Status, createdAt: Instant)

  /** The stored value of an optional column after an update with field `f`. */
  function Assign(f: OptField, current: Option<string>): (r: Option<string>)
    ensures f.Undefined? ==> r == current
    ensures f.Null? ==> r.None?
    ensures f.Text? ==> r == Some(f.value)
  {
    match f
    case Undefined => current
    case Null => None
    case Text(v) => Some(v)
  }

  const MissingSensorFields := "Missing required fields"

  predicate Valid(body: SensorBody) {
    Present(body.sensorId) && Present(body.brokerUrl) && Present(body.topic) && Present(body.samplePayload)
  }

  /** Saving a validated body by its `sensorId`: an existing record has the request's fields
      written over it, a missing one is created with the row defaults. */
  function Upsert(store: Store, body: SensorBody, defaults: RowDefaults): (r: (Store, Sensor))
    requires WellKeyed(store) && Valid(body)
    ensures var (store', saved) := r;
      var key := body.sensorId.value;
      && store'.Keys == store.Keys + {key}
      && store'[key] == saved
      && saved.sensorId == key
      && saved.brokerUrl == body.brokerUrl.value && saved.topic == body.topic.value
      && saved.samplePayload == body.samplePayload.value
      && (forall k :: k in store && k != key ==> store'[k] == store[k])
      && WellKeyed(store')
  {
    var key := body.sensorId.value;
    var saved :=
      if key in store then
        store[key].(brokerUrl := body.brokerUrl.value, topic := body.topic.value,
                    description := Assign(body.description, store[key].description),
                    samplePayload := body.samplePayload.value,
                    nodeRedFlowId := Assign(body.nodeRedFlowId, store[key].nodeRedFlowId))
      else
        Sensor(defaults.id, key, body.brokerUrl.value, body.topic.value, Assign(body.description, None),
               body.samplePayload.value, defaults.status, defaults.createdAt, None,
               Assign(body.nodeRedFlowId, None));
    (store[key := saved], saved)
  }

  datatype Outcome = Outcome(store: Store, response: Response<Sensor>)

  /** `POST /api/sensors`. `body` is `Err` when the request body is not JSON and also when it
      is JSON `null`, whose destructuring throws; both answer 500. */
  function PostSensor(store: Store, body: Result<SensorBody>, defaults: RowDefaults): (o: Outcome)
    requires WellKeyed(store)
    ensures body.Err? ==> o == Outcome(store, Fail(500, body.message))
    ensures body.Ok? && !Valid(body.value) ==> o == Outcome(store, Fail(400, MissingSensorFields))
    ensures o.response.status == 200 <==> body.Ok? && Valid(body.value)
    ensures o.response.status != 200 ==> o.store == store
    ensures o.response.status == 200 ==> body.value.sensorId.value in o.store && WellKeyed(o.store)
    ensures o.response.status == 200 ==> o.response.body == OkBody(o.store[body.value.sensorId.value])
    // Success is the upsert: one key added or rewritten, records under other keys unchanged.
    ensures o.response.status == 200 ==>
              && o.response.body.OkBody?
              && (o.store, o.response.body.data) == Upsert(store, body.value, defaults)
              && o.store.Keys == store.Keys + {body.value.sensorId.value}
              && (forall k :: k in store && k != body.value.sensorId.value ==> o.store[k] == store[k])
  {
    if body.Err? then Outcome(store, Fail(500, body.message))
    else if !Valid(body.value) then Outcome(store, Fail(400, MissingSensorFields))
    else
      var (store', saved) := Upsert(store, body.value, defaults);
      Outcome(store', Success(saved))
  }

  /** An absent `sensorId` creates a record from the body and the row defaults. */
  lemma UpsertCreates(store: Store, body: SensorBody, defaults: RowDefaults)
    requires WellKeyed(store) && Valid(body) && body.sensorId.value !in store
    ensures var saved := Upsert(store, body, defaults).1;
      && |Upsert(store, body, defaults).0| == |store| + 1
      && saved.id == defaults.id && saved.status == defaults.status && saved.createdAt == defaults.createdAt
      && saved.lastSeen.None?
      && saved.description == (if body.description.Text? then Some(body.description.value) else None)
      && saved.nodeRedFlowId == (if body.nodeRedFlowId.Text? then Some(body.nodeRedFlowId.value) else None)
  {
  }

  /** An existing `sensorId` keeps its record's id, status, creation time and last-seen time;
      only the five request fields are written: a string sets an optional field, `null` clears
      it, and an absent one keeps its value. */
  lemma UpsertUpdates(store: Store, body: SensorBody, defaults: RowDefaults)
    requires WellKeyed(store) && Valid(body) && body.sensorId.value in store
    ensures var before := store[body.sensorId.value];
      var saved := Upsert(store, body, defaults).1;
      && |Upsert(store, body, defaults).0| == |store|
      && saved.id == before.id && saved.status == before.status
      && saved.createdAt == before.createdAt && saved.lastSeen == before.lastSeen
      && saved.description == Assign(body.description, before.description)
      && saved.nodeRedFlowId == Assign(body.nodeRedFlowId, before.nodeRedFlowId)
      && (body.description.Undefined? ==> saved.description == before.description)
      && (body.nodeRedFlowId.Undefined? ==> saved.nodeRedFlowId == before.nodeRedFlowId)
  {
  }

  /** After a successful POST the store is still keyed by `sensorId`, so exactly one record
      carries the posted `sensorId`. */
  lemma PostSensorKeepsKeyUnique(store: Store, body: Result<SensorBody>, defaults: RowDefaults)
    requires WellKeyed(store)
    requires PostSensor(store, body, defaults).response.status == 200
    ensures WellKeyed(PostSensor(store, body, defaults).store)
    ensures var store' := PostSensor(store, body, defaults).store;
      var key := body.value.sensorId.value;
      key in store' && forall k :: k in store' && store'[k].sensorId == key ==> k == key
  {
  }

  // ---------------------------------------------------------------------------------------
  // Listing: every record, in descending order of creation time
  // ---------------------------------------------------------------------------------------

  ghost predicate NewestFirst(s: seq<Sensor>) {
    forall i, j :: 0 <= i < j < |s| ==> s[i].createdAt >= s[j].createdAt
  }

  /** Places `x` into a newest-first sequence, after every record at least as new. */
  function InsertByCreation(s: seq<Sensor>, x: Sensor): (r: seq<Sensor>)
    requires NewestFirst(s)
    ensures NewestFirst(r)
    ensures |r| == |s| + 1
    ensures multiset(r) == multiset(s) + multiset{x}
  {
    if |s| == 0 then [x]
    else if s[0].createdAt < x.createdAt then [x] + s
    else
      var rest := InsertByCreation(s[1..], x);
      assert s == [s[0]] + s[1..];
      assert rest[0] in multiset(rest);
      [s[0]] + rest
  }

  /** Every record of the store, newest first. */
  method ListSensors(store: Store) returns (r: seq<Sensor>)
    requires WellKeyed(store)
    ensures NewestFirst(r)
    ensures |r| == |store|
    ensures forall i :: 0 <= i < |r| ==> r[i].sensorId in store && store[r[i].sensorId] == r[i]
    ensures forall k :: k in store ==> store[k] in r
  {
    var remaining := store.Keys;
    r := [];
    while remaining != {}
      invariant remaining <= store.Keys
      invariant NewestFirst(r)
      invariant |r| + |remaining| == |store|
      invariant forall i :: 0 <= i < |r| ==> r[i].sensorId in store && store[r[i].sensorId] == r[i]
      invariant forall k :: k in store && k !in remaining ==> store[k] in r
      decreases |remaining|
    {
      var k :| k in remaining;
      var r' := InsertByCreation(r, store[k]);
      assert forall x :: x in r' <==> x in r || x == store[k] by {
        forall x ensures x in r' <==> x in r || x == store[k] {
          assert x in r' <==> x in multiset(r');
          assert x in r <==> x in multiset(r);
        }
      }
      forall i | 0 <= i < |r'|
        ensures r'[i].sensorId in store && store[r'[i].sensorId] == r'[i]
      {
        assert r'[i] in r';
        if r'[i] != store[k] {
          var j :| 0 <= j < |r| && r[j] == r'[i];
        }
      }
      r := r';
      remaining := remaining - {k};
    }
  }

  datatype Listing = Listing(sensors: seq<Sensor>)

  /** `GET /api/sensors` */
  method GetSensors(store: Store) returns (response: Response<Listing>)
    requires WellKeyed(store)
    ensures response.status == 200 && response.body.OkBody?
    ensures var listed := response.body.data.sensors;
      && NewestFirst(listed) && |listed| == |store|
      && (forall k :: k in store ==> store[k] in listed)
      && (forall s :: s in listed ==> s.sensorId in store && store[s.sensorId] == s)
  {
    var sensors := ListSensors(store);
    response := Success(Listing(sensors));
  }
}

=== FILE: sensor_types.dfy ===
/** The records of the application: the sensor record shared by the client and the store,
    and the Node-RED node objects the application generates and merges. */
module SensorTypes {
  import opened Wrappers

  datatype Status = Connected | Disconnected | Error

  /** A point in time, in milliseconds since the epoch (`Date.now()`). */
  type Instant = nat

  /** One registered sensor. `id` is the record's own key; `sensorId` is the caller-chosen
      name that the store keeps unique. */
  datatype Sensor = Sensor(
    id: string,
    sensorId: string,
    brokerUrl: string,
    topic: string,
    description: Option<string>,
    samplePayload: string,
    status: Status,
    createdAt: Instant,
    lastSeen: Option<Instant>,
    nodeRedFlowId: Option<string>)

  /** The node `type` strings the generator produces. */
  const TabType := "tab"
  const MqttInType := "mqtt in"
  const JsonType := "json"
  const DebugType := "debug"
  const BrokerType := "mqtt-broker"

  /** One object of a Node-RED flow collection (`label` and `datatype` are spelled `tabLabel` and `dataType`,
      since both are Dafny keywords). The first five variants are the shapes the
      generator produces; `Other` is any further node found in a remote collection, of which
      only the `id` (possibly missing) and `type` matter to the application. */
  datatype FlowNode =
    | Tab(id: string, tabLabel: string, disabled: bool, info: string,
          x: int, y: int, z: string, wires: seq<seq<string>>)
    | MqttIn(id: string, z: string, name: string, topic: string, qos: string,
             dataType: string, broker: string, x: int, y: int, wires: seq<seq<string>>)
    | JsonParser(id: string, z: string, name: string, property: string, action: string,
                 pretty: bool, x: int, y: int, wires: seq<seq<string>>)
    | Debug(id: string, z: string, name: string, active: bool, tosidebar: bool,
            complete: string, x: int, y: int, wires: seq<seq<string>>)
    | MqttBroker(id: string, name: string, broker: string, port: int, clientid: string,
                 autoConnect: bool, usetls: bool, protocolVersion: string,
                 keepalive: int, cleansession: bool)
    | Other(nodeId: Option<string>, nodeType: string)
  {
    /** The node's `id` property; absent only on foreign nodes that lack one. */
    function Id(): Option<string> {
      if Other? then nodeId else Some(id)
    }

    /** The node's `type` property. */
    function Type(): string {
      match this
      case Tab(_, _, _, _, _, _, _, _) => TabType
      case MqttIn(_, _, _, _, _, _, _, _, _, _) => MqttInType
      case JsonParser(_, _, _, _, _, _, _, _, _) => JsonType
      case Debug(_, _, _, _, _, _, _, _, _) => DebugType
      case MqttBroker(_, _, _, _, _, _, _, _, _, _) => BrokerType
      case Other(_, t) => t
    }

    /** A foreign node never carries one of the generator's type strings: nodes of those
        types are represented by their own variants. */
    predicate WellTyped() {
      Other? ==> nodeType !in {TabType, MqttInType, JsonType, DebugType, BrokerType}
    }
  }
}

=== FILE: sequences.dfy ===
/** Order-preserving selection from a sequence. */
module Sequences {

  /** `a` is `b` with some elements deleted and the rest left in their order. */
  ghost predicate IsSubsequence<T>(a: seq<T>, b: seq<T>)
    decreases |b|
  {
    if |b| == 0 then |a| == 0
    else (|a| > 0 && a[0] == b[0] && IsSubsequence(a[1..], b[1..])) || IsSubsequence(a, b[1..])
  }

  /** Dropping or keeping the head of `b` extends a subsequence of its tail. */
  lemma SubsequenceStep<T>(b: seq<T>, a: seq<T>)
    requires |b| > 0 && IsSubsequence(a, b[1..])
    ensures IsSubsequence(a, b)
    ensures IsSubsequence([b[0]] + a, b)
  {
    assert ([b[0]] + a)[1..] == a;
  }

  /** `r` holds every occurrence of the elements of `xs` that `keep` accepts, and nothing else. */
  ghost predicate KeepsCounts<T(!new)>(r: seq<T>, xs: seq<T>, keep: T -> bool) {
    forall x :: multiset(r)[x] == if keep(x) then multiset(xs)[x] else 0
  }

  /** Counts fix membership: an element occurs exactly when its count is positive. */
  lemma CountsGiveMembers<T(!new)>(r: seq<T>, xs: seq<T>, keep: T -> bool)
    requires KeepsCounts(r, xs, keep)
    ensures forall x :: x in r <==> x in xs && keep(x)
  {
    forall x ensures x in r <==> x in xs && keep(x) {
      assert x in r <==> multiset(r)[x] > 0;
      assert x in xs <==> multiset(xs)[x] > 0;
    }
  }

  /** One step of `filter`: the head of `xs` is kept or dropped, and what holds of the tail's
      selection `rest` carries over to the whole. */
  lemma FilterStep<T(!new)>(xs: seq<T>, rest: seq<T>, keep: T -> bool)
    requires |xs| > 0 && |rest| <= |xs| - 1
    requires IsSubsequence(rest, xs[1..]) && KeepsCounts(rest, xs[1..], keep)
    ensures var r := if keep(xs[0]) then [xs[0]] + rest else rest;
      && |r| <= |xs|
      && IsSubsequence(r, xs)
      && KeepsCounts(r, xs, keep)
      && (forall x :: x in r <==> x in xs && keep(x))
  {
    var r := if keep(xs[0]) then [xs[0]] + rest else rest;
    SubsequenceStep(xs, rest);
    assert xs == [xs[0]] + xs[1..];
    assert multiset(xs) == multiset{xs[0]} + multiset(xs[1..]);
    assert multiset([xs[0]] + rest) == multiset{xs[0]} + multiset(rest);
    CountsGiveMembers(r, xs, keep);
  }
}

=== FILE: strings.dfy ===
/** Character and string helpers standing in for the JavaScript string and regex operations
    the application uses. Characters are treated as ASCII where the source relies on classes
    such as `\d` or `[a-zA-Z]`. */
module Strings {

  predicate IsDigit(c: char) { '0' <= c <= '9' }

  predicate IsLetter(c: char) { 'a' <= c <= 'z' || 'A' <= c <= 'Z' }

  /** The character class `[a-zA-Z0-9.-]`. */
  predicate IsHostChar(c: char) { IsLetter(c) || IsDigit(c) || c == '.' || c == '-' }

  predicate AllDigits(s: string) { forall i :: 0 <= i < |s| ==> IsDigit(s[i]) }

  predicate AllLetters(s: string) { forall i :: 0 <= i < |s| ==> IsLetter(s[i]) }

  predicate AllHostChars(s: string) { forall i :: 0 <= i < |s| ==> IsHostChar(s[i]) }

  /** `s.startsWith(p)` */
  predicate StartsWith(s: string, p: string) { |p| <= |s| && s[..|p|] == p }

  /** `s.includes(t)`: t occurs in s at some offset. */
  predicate Contains(s: string, t: string) {
    exists i | 0 <= i <= |s| - |t| :: OccursAt(s, t, i)
  }

  predicate OccursAt(s: string, t: string, i: int)
    requires 0 <= i <= |s| - |t|
  {
    s[i..i + |t|] == t
  }

  /** Every string includes the empty string. */
  lemma ContainsEmpty(s: string)
    ensures Contains(s, "")
  {
    assert OccursAt(s, "", 0);
  }

  /** `String.prototype.toLowerCase`, restricted to the ASCII letters. */
  function LowerChar(c: char): (r: char)
    ensures 'A' <= c <= 'Z' ==> r != c && 'a' <= r <= 'z'
    ensures !('A' <= c <= 'Z') ==> r == c
  {
    if 'A' <= c <= 'Z' then (c as int - 'A' as int + 'a' as int) as char else c
  }

  function Lower(s: string): (r: string)
    ensures |r| == |s|
    ensures forall i :: 0 <= i < |s| ==> r[i] == LowerChar(s[i])
  {
    seq(|s|, i requires 0 <= i < |s| => LowerChar(s[i]))
  }

  /** Number of consecutive characters at the end of `s` satisfying `IsDigit`. */
  function TrailingDigits(s: string): (k: nat)
    ensures k <= |s|
    ensures AllDigits(s[|s| - k..])
    ensures k < |s| ==> !IsDigit(s[|s| - k - 1])
  {
    if |s| == 0 || !IsDigit(s[|s| - 1]) then 0
    else 1 + TrailingDigits(s[..|s| - 1])
  }

  /** Number of consecutive characters at the end of `s` satisfying `IsLetter`. */
  function TrailingLetters(s: string): (k: nat)
    ensures k <= |s|
    ensures AllLetters(s[|s| - k..])
    ensures k < |s| ==> !IsLetter(s[|s| - k - 1])
  {
    if |s| == 0 || !IsLetter(s[|s| - 1]) then 0
    else 1 + TrailingLetters(s[..|s| - 1])
  }

  /** Decimal rendering of a natural number, as JavaScript's template literals print `Date.now()`. */
  function NatToString(n: nat): (r: string)
    ensures |r| > 0 && AllDigits(r)
  {
    if n < 10 then [DigitChar(n)] else NatToString(n / 10) + [DigitChar(n % 10)]
  }

  function DigitChar(d: nat): (c: char)
    requires d < 10
    ensures IsDigit(c)
  {
    ('0' as int + d) as char
  }
}

=== FILE: wrappers.dfy ===
/** Failure-carrying datatypes shared by every module of the model. */
module Wrappers {

  /** A value that may be absent: JavaScript's `undefined` for an optional field. */
  datatype Option<+T> = None | Some(value: T) {
    function GetOr(default: T): (r: T)
      ensures Some? ==> r == value
      ensures None? ==> r == default
    {
      match this
      case Some(v) => v
      case None => default
    }
  }

  /** The outcome of a step that either yields a value or throws an error message. */
  datatype Result<+T> = Ok(value: T) | Err(message: string)
}
